=== FILE: README.md ===
# UnoKb keypad daemon — protocol and dispatch engine in Dafny

UnoKb is a daemon that sits between a serial macro keypad and the host. The
keypad reports button presses and mode-dial moves as text lines. The daemon
decodes each line, keeps the current mode, runs the macro bound to the pressed
button, and announces each new mode back to the keypad. It makes sure only one
instance runs, using a PID file. On SIGTERM it puts toggled actions back the
way it found them and tells the keypad it is leaving.

This project models that engine, which is all in `unokb.py`, as pure functions
over immutable datatypes, and proves properties of them:

- `text.dfy` (`Text`): character searches, Python's `int()` on sign-and-digit
  text, and `str()` of an integer.
- `frame.dfy` (`Frame`): `receiveCommand` and its two regular expressions.
- `mode.dfy` (`Mode`): the mode arithmetic, the `setMode` announcement, and
  the choice of a macro name from a button number.
- `actions.dfy` (`Actions`): `runMacro` and `ToggleableAction`, with process
  launches and terminations written as an effect log.
- `daemon.dfy` (`Daemon`): one iteration of `main`'s loop, and the
  restore-and-notify part of `shutdown`.
- `lifecycle.dfy` (`Lifecycle`): the PID-file decision at start-up.
- `wrappers.dfy` (`Wrappers`): the `Option` type.

Process handles come from a counter that each operation threads through, so a
handle is just a number. Starting a process adds a `Spawn` entry to the effect
log, and `Popen.terminate` adds a `Terminate` entry. A Python exception becomes
a `Raised` / `Fatal` / `Uncaught` outcome. It carries the effects and output
that had already happened when the exception was raised.

Some behaviours of the code are easy to misread. The model follows the code:

- Turning a toggleable action off when it holds no process and has no fallback
  calls `terminate` on `None`. That raises, and the action stays on. It is not
  a quiet switch to off.
- The start-up probe of a toggleable action reads `returncode` from a process
  nobody has waited for. That value is `None`, so as written every probed
  action starts off. The value read is a parameter of `NewToggleable`.
- Button numbers use Python list indexing. `1 - len .. len` are all valid, and
  button `0` selects the last slot. Only numbers outside that range are fatal.
  The model also accepts modes with any number of slots, not just four.
- The wire text is the `str()` of a `bytes` value (`b'...'`). The decoder
  splits at the last `=`. The argument is the longest run of `[0-9+-]` after
  it, which may be empty, and any text after that run is ignored.
- The entries of a list-of-lists macro are started one after another, in list
  order, and none is waited for. A failure stops the loop, and the entries
  already started keep running.
- `mode_changed` stores the new mode before writing the announcement. A write
  that fails therefore leaves the daemon in the new mode.
- The PID file is created empty before the PID is written. If that write
  fails, an empty file is left behind, and `int('')` then crashes every later
  start.

## Model

| member | source | states |
|---|---|---|
| Text.ParseInt | unokb.py:160 | `int()` on text of digits and signs succeeds exactly for one optional sign followed by at least one digit (with no limit on the number of digits); a negative value needs a leading `-` |
| Text.ParseLeadingZeros | unokb.py:160 | `int()` reads leading zeros (as many as the model's unbounded digit count allows) and an optional `+` or `-` before the decimal notation of `n` as `n`, `n` or `-n`, so `btn_pressed=01` and `btn_pressed=+1` both press button 1 |
| Text.DigitsValueAppend | unokb.py:160 | digits read in positional notation: the value of `a + b` is the value of `a` times `10^len(b)` plus the value of `b` |
| Text.FirstLine | unokb.py:202 | `readline()` keeps the text up to the first line break, `\n` or a lone `\r`, and ends it with `\n` whenever there is a break (universal newlines); text without a break is returned whole, and no break occurs before the last character |
| Text.Trim | unokb.py:202 | the whitespace `int()` ignores is stripped from both ends: the result is a contiguous piece of the input, everything before and after it is whitespace, it neither starts nor ends with whitespace, and text without any is left alone |
| Text.ParseShowInt | unokb.py:202 | `int(str(i)) == i` for every integer, which is how a PID written to the file is read back |
| Frame.Unwrap | unokb.py:105 | `b'(.*)'` matched at the start of a line (`b` or `B`) yields a capture exactly when one exists, and it yields the longest one: the text up to the last quote before the first newline |
| Frame.Split | unokb.py:108 | `(.*)=([0-9+-]*)` fails exactly when no `=` precedes the first newline; otherwise the name ends at the last such `=` and the argument is the maximal run of digits and signs after it |
| Frame.Decode | unokb.py:111-123 | `receiveCommand` fails exactly when the line has no `b'...'` wrapper or the wrapped text has no `=`; a command it yields has a newline-free name and an argument of digits and signs |
| Frame.DecodeRejects | unokb.py:114-123 | a line decodes to nothing exactly when it has no `b'...'` wrapper or the unwrapped text has no `=` |
| Frame.DecodeShape | unokb.py:114-121 | a decoded command lies in the line as `b'` + name + `=` + argument, with no newline in the name and only digits and signs in the argument |
| Frame.UnwrapWrapped | unokb.py:105 | wrapping any newline-free text as `b'...'` and matching `b'(.*)'` gives the text back, even when it holds quotes |
| Frame.SplitJoined | unokb.py:108 | matching `(.*)=([0-9+-]*)` on `name=arg` gives `name` and `arg` back when the name has no newline and the argument is digits and signs, even when the name holds `=` |
| Frame.DecodeRoundTrip | unokb.py:105-121 | wrapping `name=arg` as `b'...'` and decoding it gives `(name, arg)` back, for every newline-free name (which may hold `=` and quotes) and every argument of digits and signs |
| Mode.NextMode | unokb.py:165 | the next mode lies in `[0, len(modes))` and is congruent to `current + change`, which is Python's `%` for negative changes too |
| Mode.Announce | unokb.py:126-133 | what `setMode` writes, cut at each NUL-newline terminator, is the `mode_setup` record followed by one record per slot in order, so slot names without NUL are recovered exactly |
| Mode.AnnounceInjective | unokb.py:126-133 | two modes whose slot names hold no NUL are announced identically exactly when they have the same slot names in the same order |
| Mode.AnnounceAscii | unokb.py:126-133 | when every name of a mode is ASCII, `setMode` writes the whole announcement |
| Mode.AsciiPrefix | unokb.py:129-131 | writing character by character with `bytes(x, 'ascii')` emits exactly the prefix before the first non-ASCII character, and completes only if there is none |
| Mode.Resolve | unokb.py:161 | `modes[m][n - 1]` succeeds exactly when `-len <= n - 1 < len`, and then names slot `(n - 1) mod len` |
| Actions.SpawnOne | unokb.py:25 | one `Popen` call starts one process with a fresh handle, except for an empty argument list, which raises before anything starts |
| Actions.SpawnAll | unokb.py:27-28 | the list-of-lists loop starts one process per entry in list order with consecutive fresh handles; it raises exactly at the first empty entry, after starting all entries before it |
| Actions.RunPlain | unokb.py:24-28 | a plain macro makes one `Popen` call per command it holds (one for a string or a list of strings, one per entry for a list of lists), in order and with consecutive fresh handles; it raises exactly when one of them is an empty argument list, at the first such list and after the calls before it, none of which had an empty list; it returns the handle only for the one-call shapes |
| Actions.RunPlainSingle | unokb.py:24-25 | a macro returns a process exactly when it is a string or a non-empty list of strings, and then it makes exactly that one `Popen` call |
| Actions.RunMacro | unokb.py:19-28 | a toggleable action is only toggled and nothing is returned; a plain macro is launched in a new session, returns its handle if it has one, and is itself unchanged; either way the effects and the handle counter are those of the toggle or launch, raising or not |
| Actions.NewToggleable | unokb.py:32-42 | a new action holds no process and starts in its initial state, which is on only when a probe exists and its return code read as 0; a probe that launches exactly one process has exactly that launch as its effects, and any other probe (an empty argument list or a list of commands) raises, keeping whatever launches it made |
| Actions.ProbeAsWrittenSeedsOff | unokb.py:35-39 | with the `None` return code that an un-awaited probe has, the action always starts off |
| Actions.Toggle | unokb.py:44-54 | off to on launches the command and keeps its handle, and when that launch raises the effects are exactly its partial launches; on to off terminates the kept process, or else runs the fallback; with neither it raises and stays on; success always flips the state and keeps the configuration |
| Actions.ToggleRaisesIff | unokb.py:44-54 | a toggle raises exactly when the command (turning on) or the fallback (turning off without a process) cannot run, or when turning off has neither a process nor a fallback |
| Actions.ToggleAlternates | unokb.py:44-54 | from off, with a command that starts one process, `2m` toggles leave the action off after `m` start-stop cycles and `2m + 1` leave it on holding the process it started last; each stop is addressed to the process of the start just before it |
| Daemon.Lookup | unokb.py:161 | `macros[name]` finds the first entry with that name, and fails exactly when no entry has it |
| Daemon.LookupUnique | unokb.py:84-95 | with distinct dictionary keys, the entry found is the only one with that name |
| Daemon.StepKeepsNames | unokb.py:153-177 | a step keeps the number and the names of the macros, so distinct keys stay distinct |
| Daemon.Step | unokb.py:153-177 | a step keeps the mode in range and never moves the handle counter back; only a successful dispatch changes the macros; a failed read is a link failure that reopens exactly when `keep_alive` is set |
| Daemon.StepDispatch | unokb.py:155-166 | a decoded line goes to the button handler or the mode handler by its exact command name, and any other name is ignored |
| Daemon.StepIgnores | unokb.py:155-157 | undecodable lines and unknown command names leave mode, macros and handles unchanged, with no effects and no output |
| Daemon.ChangeModeSpec | unokb.py:163-166 | `mode_changed` with a bad number is fatal and changes nothing; otherwise the mode becomes `(m + d) mod len(modes)` before the announcement; a port that takes no writes gives a link failure in the new mode, and a writable one receives the announcement up to its first non-ASCII character, the step going on exactly when there is none |
| Daemon.StepModeChanged | unokb.py:163-166 | the same for a whole step on any line that decodes to `mode_changed` |
| Daemon.ModeAnnouncedWhole | unokb.py:163-166 | a dial move on a writable port to a mode with ASCII names continues with the new mode and the complete announcement as output |
| Daemon.StepModeFrame | unokb.py:163-165 | the frame the keypad sends for a dial move of `d` takes any mode `m` to `(m + d) mod len(modes)` |
| Daemon.ModeCycleExample | unokb.py:165 | with three modes, from mode 0 `mode_changed=-1` gives mode 2, and from there `mode_changed=2` gives mode 1 |
| Daemon.PressButton | unokb.py:159-161 | a button press keeps the mode and the macro names, never reports a link failure and never moves the handle counter back; only a successful press can change the macros, and it keeps their number |
| Daemon.ChangeMode | unokb.py:163-166 | a mode change keeps the mode in range and leaves the macros and handles alone; its only link failure is the write failure, which reopens exactly when `keep_alive` is set |
| Daemon.PressButtonSpec | unokb.py:159-161 | a button press never changes the mode or writes output; it is fatal exactly on a bad number, an invalid index, an unknown macro or a macro that raises; a bad number, index or name fails with no effects and nothing else changed; once a macro is found the effects and handle counter are exactly those of running it, including the partial launches of a macro that raises; a fatal press leaves the macros as they were; otherwise the effects are those of the pressed macro and only its entry changes, to what `runMacro` made of it |
| Daemon.StepButtonPressed | unokb.py:159-177 | the same for a whole step on any line that decodes to `btn_pressed`: every failure takes the fatal path, with no effects before a macro is found and exactly the macro's partial launches after |
| Daemon.StepReadFailed | unokb.py:168-173 | a failed read changes nothing and terminates the daemon exactly when `keep_alive` is false |
| Daemon.StepTerminatesOnlyOwn | unokb.py:153-177 | a step asks only processes the daemon started earlier to stop, gives new processes new handles, and keeps every stored handle among those it has issued |
| Daemon.RestoreEntry | unokb.py:181-184 | one pass of the loop body leaves an entry that has not drifted unchanged with no effects, puts a drifted one back in its initial state, and raises exactly when a drifted one cannot be toggled |
| Daemon.Restore | unokb.py:180-184 | the restore loop toggles exactly the toggleable actions whose state differs from their initial one, leaves every other entry equal, and puts each toggled one back in its initial state; it raises exactly when one of those cannot be toggled |
| Daemon.RunPlainStarts | unokb.py:24-28 | a macro run in a new session starts its commands in order, all of them when it returns |
| Daemon.ToggleFollowsPlan | unokb.py:44-54 | toggling a drifted action does what its restore plan says: start the command when off, stop the held process when on, or else start the fallback kill command; when it raises, it has done a prefix of that |
| Daemon.RestoreFollowsPlan | unokb.py:180-184 | the restore loop's effects, with start handles left out, are the restore plans of the entries in dictionary order; when a toggle raises, it is at the first entry that cannot be toggled, and the plans of every entry before it have been carried out in full, followed by part of that entry's plan |
| Daemon.PlanHas | unokb.py:180-184 | every step of one entry's restore plan is part of the whole plan |
| Daemon.Shutdown | unokb.py:179-193 | after a completed shutdown every toggleable action is in its initial state and the effects are the restore plan of the macros; `host_disconnect` is written exactly when the port is open and writable; an interrupted shutdown stops at the first entry that cannot be toggled, after carrying out the plans of every entry before it |
| Daemon.ShutdownRestores | unokb.py:180-184 | when every action that drifted can be toggled, shutdown completes and every toggleable action ends in its initial state |
| Daemon.ShutdownStopsHeld | unokb.py:180-184 | a completed shutdown asks every process held by a drifted, switched-on action to stop |
| Lifecycle.RecordedPid | unokb.py:201-202 | `int(f.readline())` fails on an empty file, and on a one-line file without whitespace it reads exactly what `int()` reads from the whole text |
| Lifecycle.Start | unokb.py:197-224 | a start stops the other daemon exactly when the file holds a positive number whose process got the signal, signalling that number and leaving the file alone; a recorded 0 or negative number that the signal reached signals a process group or every process instead, again leaving the file alone; it proceeds exactly when the PID is written and the file was absent or stale, recording its own PID and warning only when stale; a failed open or write exits with 1, leaving an empty file when the write failed after the open or the file was new, and the old text when the open of a stale file failed |
| Lifecycle.RecordedShowInt | unokb.py:202 | the PID a daemon writes is read back exactly by `int(f.readline())` |
| Lifecycle.ZeroPidSignalsGroup | unokb.py:201-205 | a PID file that records 0 makes the start signal its own process group; that start is not reported as stopping another daemon |
| Lifecycle.SecondInstanceStopsFirst | unokb.py:197-206 | a second start while the first daemon (whose PID is positive, as `os.getpid()` always is) runs signals that PID and exits without writing its own |
| Lifecycle.StaleFileTakenOver | unokb.py:207-222 | a file left by a dead daemon is overwritten with the new PID, with a warning |
| Lifecycle.FailedWriteBlocksRestart | unokb.py:197-224 | a write that fails after `open(..., 'w')` emptied the file, or a failed open of a newly created file, exits with status 1 and leaves an empty file; every later start then crashes on `int('')` |
| Lifecycle.RecordedFirstLineOnly | unokb.py:201-202 | only the first line of the PID file counts, a lone `\r` ending it as `\n` does: a PID followed by a line break reads back as that PID, whatever follows the break |

## Left out

- Serial I/O through pyserial, `openSerialPort`'s one-second polling loop and
  `setDTR` are not modelled. They are hardware plumbing. Whether a read
  succeeds is the step's `Input`, and whether the port takes writes is a flag.
- A write that fails part-way is not modelled. The model treats the port as
  failing on its first write, and then nothing of the announcement or of the
  disconnect notice counts as sent.
- Python's `str()` escaping of the received bytes is not modelled. The decoder
  starts from the resulting text. In particular, a received line that holds a
  single quote and no double quote is rendered as `b"..."`, so `b'(.*)'` does
  not match it and the program ignores it; `Frame.DecodeRoundTrip` speaks of
  the rendered text and so does not cover such a line.
- A list whose first element is a string but which also holds lists, such as
  `['a', ['b']]`, is not a `Plain` value: `runMacro` hands it to one `Popen`,
  which raises `TypeError` on the inner list.
- Operating-system launch failures are not modelled, such as a missing
  executable or a failed fork. They belong to `subprocess`. Only the
  deterministic failure of an empty argument list is modelled.
- Process behaviour after launch is not modelled: exit codes, and whether
  `terminate` reaches a live process. Handles are opaque numbers.
- `daemon.DaemonContext`, installing the signal handler, asynchronous SIGTERM
  delivery, `os.kill`, `os.remove` of the PID file and `sys.exit` are not
  modelled. They are operating-system concerns. Their outcomes are the
  `Signal` input and the step and shutdown outcomes that the caller acts on.
- The model does not follow what happens after an exception escapes the
  shutdown handler. That path depends on where the signal interrupted the
  loop. `Shutdown` reports it as `Interrupted`.
- Logging and `print` output are not modelled.
- The concrete `macros` and `modes` tables are parameters, not fixed values.
  The modes list must not be empty: with no modes, `% len(modes)` divides by
  zero.
- The registry models `macros` values, not Python objects. The same
  `ToggleableAction` object under two keys would share its state in Python.
  Here the two entries are independent.
- Lifecycle.RecordedPid models `int()` only for an optional sign, ASCII digits
  and the whitespace space, tab, newline, carriage return, vertical tab and
  form feed. It does not accept the underscores, non-ASCII digits or other
  whitespace (such as `\x1c`-`\x1f` or non-ASCII spaces) that Python also
  accepts. A PID file written by `str(os.getpid())` contains none of these.
- Text.ParseInt has no limit on the number of digits. Python 3.11 and later, and
  the security releases of 3.7 to 3.10, reject `int()` of more than 4300
  digits, leading zeros included, with `ValueError`. There, a frame such as
  `mode_changed=` followed by 4300 zeros and a `1` is fatal, but the model
  moves one mode. The limit depends on the interpreter version and its
  settings.
- Lifecycle.Start does not model what signalling a process group does to the
  starting process itself. With a recorded 0 the starter's own group receives
  SIGTERM before any handler is installed, so the starter is likely to die
  before `sys.exit(0)`. The model reports this as `SignalGroup`.
- Lifecycle.Start treats a failed write of the PID as writing nothing; a write
  that fails part-way through the digits is not modelled.
- Reading an existing PID file can also fail for reasons other than its
  content, for example permissions. This is not modelled.

=== FILE: actions.dfy ===
/**
 Macro execution (`runMacro`) and the toggleable action (`ToggleableAction`).

 Launching a process is a call into the operating system; here it is an entry
 `Spawn` in an effect log, and the process handle `Popen` returns is a next
 number drawn from a counter that every operation threads through. Asking a
 process to stop (`Popen.terminate`) is the entry `Terminate`. An exception the
 Python code would raise is the outcome `Raised`, carrying the effects that
 had already happened and the counter at that point.
 */
module Actions {
  import opened Wrappers

  type Handle = nat

  /** What one `subprocess.Popen` call receives: a command string or an argument list. */
  datatype Argv = Str(path: string) | Vector(args: seq<string>)

  /**
   A configured macro that is not toggleable. The first element of a list
   decides its shape: a string makes the whole list one argument list, and a
   list makes the whole list a list of commands, each a string or a list.
   */
  datatype Plain =
    | Simple(path: string)                        // a string: one command or script path
    | Composite(args: seq<string>)                // the empty list, or a list of strings
    | Sequence(first: seq<string>, rest: seq<Argv>) // a list whose first element is a list

  /** The argument of every `Popen` call that `runMacro` makes on `p`, in order. */
  function Launches(p: Plain): (r: seq<Argv>)
    ensures |r| > 0
  {
    match p
    case Simple(path) => [Str(path)]
    case Composite(args) => [Vector(args)]
    case Sequence(first, rest) => [Vector(first)] + rest
  }

  /**
   A `ToggleableAction`: the command it starts, the optional fallback kill
   command, its current and initial states, and the handle of the process it
   last started (`proc`, which turning off does not clear).
   */
  datatype Toggleable = Toggleable(
    command: Plain,
    kill: Option<Plain>,
    on: bool,
    initOn: bool,
    proc: Option<Handle>)

  /** A value of the `macros` dictionary. */
  datatype Action = Macro(plain: Plain) | Switch(toggle: Toggleable)

  datatype Effect =
    | Spawn(argv: Argv, handle: Handle, newSession: bool)
    | Terminate(handle: Handle)

  /** How a call ended: with a value, or with an exception. */
  datatype Outcome<+T> =
    | Done(value: T, effects: seq<Effect>, next: Handle)
    | Raised(effects: seq<Effect>, next: Handle)

  /** The handles of the processes an effect log started. */
  predicate SpawnsBetween(effects: seq<Effect>, lo: Handle, hi: Handle) {
    forall i :: 0 <= i < |effects| ==> effects[i].Spawn? && lo <= effects[i].handle < hi
  }

  /**
   One `Popen(argv, shell=False, start_new_session=newSession)`. An empty
   argument list makes `Popen` raise before anything starts; every other
   launch failure is the operating system's and is not modelled.
   */
  function SpawnOne(argv: Argv, newSession: bool, next: Handle): (r: Outcome<Handle>)
    ensures r.Raised? <==> argv == Vector([])
    ensures r.Raised? ==> r.effects == [] && r.next == next
    ensures r.Done? ==> r.effects == [Spawn(argv, r.value, newSession)] && r.next == r.value + 1
    ensures r.next >= next && SpawnsBetween(r.effects, next, r.next)
  {
    if argv == Vector([]) then Raised([], next)
    else Done(next, [Spawn(argv, next, newSession)], next + 1)
  }

  /** The loop over a list of commands: one launch per entry, in order, none awaited. */
  function SpawnAll(entries: seq<Argv>, newSession: bool, next: Handle): (r: Outcome<()>)
    ensures |r.effects| <= |entries| && r.next == next + |r.effects|
    ensures forall i :: 0 <= i < |r.effects| ==>
      entries[i] != Vector([]) && r.effects[i] == Spawn(entries[i], next + i, newSession)
    ensures r.Done? <==> |r.effects| == |entries|
    ensures r.Raised? ==> entries[|r.effects|] == Vector([])
    decreases |entries|
  {
    if entries == [] then Done((), [], next)
    else if entries[0] == Vector([]) then Raised([], next)
    else
      var rest := SpawnAll(entries[1..], newSession, next + 1);
      var e := [Spawn(entries[0], next, newSession)] + rest.effects;
      ShiftedSpawns(entries, newSession, next, rest.effects);
      if rest.Raised? then Raised(e, rest.next) else Done((), e, rest.next)
  }

  /** Putting the first launch in front of the launches of the remaining entries. */
  lemma ShiftedSpawns(entries: seq<Argv>, newSession: bool, next: Handle, rest: seq<Effect>)
    requires |entries| > 0 && entries[0] != Vector([]) && |rest| <= |entries| - 1
    requires forall i :: 0 <= i < |rest| ==>
      entries[1..][i] != Vector([]) && rest[i] == Spawn(entries[1..][i], next + 1 + i, newSession)
    ensures var e := [Spawn(entries[0], next, newSession)] + rest;
      forall i :: 0 <= i < |e| ==> entries[i] != Vector([]) && e[i] == Spawn(entries[i], next + i, newSession)
  {
    var e := [Spawn(entries[0], next, newSession)] + rest;
    forall i | 0 <= i < |e|
      ensures entries[i] != Vector([]) && e[i] == Spawn(entries[i], next + i, newSession)
    {
      if i > 0 {
        assert e[i] == rest[i - 1] && entries[i] == entries[1..][i - 1];
      }
    }
  }

  /** Whether a plain macro always starts exactly one process and returns its handle. */
  predicate LaunchesOne(p: Plain) {
    p.Simple? || (p.Composite? && p.args != [])
  }

  /**
   `runMacro` on a plain macro. A string or a list starting with a string is
   one launch whose handle is returned; a list of lists launches every entry
   in order and returns nothing. An empty argument list makes its `Popen`
   raise (for the empty macro list itself, `actions[0]` raises first, with the
   same outcome); launches already made stay made.
   */
  function RunPlain(p: Plain, newSession: bool, next: Handle): (r: Outcome<Option<Handle>>)
    ensures |r.effects| <= |Launches(p)| && r.next == next + |r.effects|
    ensures forall i :: 0 <= i < |r.effects| ==>
      Launches(p)[i] != Vector([]) && r.effects[i] == Spawn(Launches(p)[i], next + i, newSession)
    ensures r.Done? <==> Vector([]) !in Launches(p)
    ensures r.Done? ==> |r.effects| == |Launches(p)|
    ensures r.Raised? ==> |r.effects| < |Launches(p)| && Launches(p)[|r.effects|] == Vector([])
    ensures r.Done? ==> r.value == if p.Sequence? then None else Some(next)
  {
    if !p.Sequence? then
      // `Popen(actions)`: one call, whose `Popen` object is returned
      var argv := if p.Simple? then Str(p.path) else Vector(p.args);
      assert Launches(p) == [argv];
      match SpawnOne(argv, newSession, next)
      case Raised(e, f) => Raised(e, f)
      case Done(h, e, f) => Done(Some(h), e, f)
    else
      // `for command in actions: Popen(command)`, returning nothing
      match SpawnAll(Launches(p), newSession, next)
      case Raised(e, f) => Raised(e, f)
      case Done(_, e, f) => Done(None, e, f)
  }

  /** `runMacro` returns a process exactly for the shapes that start exactly one. */
  lemma RunPlainSingle(p: Plain, newSession: bool, next: Handle)
    ensures LaunchesOne(p) <==> RunPlain(p, newSession, next).Done? && RunPlain(p, newSession, next).value.Some?
    ensures LaunchesOne(p) ==>
      (RunPlain(p, newSession, next) == Done(Some(next), [Spawn(LaunchArgv(p), next, newSession)], next + 1))
  {
    var r := RunPlain(p, newSession, next);
    if LaunchesOne(p) {
      assert Vector([]) !in Launches(p);
      assert r.effects == [Spawn(LaunchArgv(p), next, newSession)];
    }
  }

  /**
   `ToggleableAction.__init__`. Without a probe the action starts off. With one,
   the probe is launched in the daemon's own session and its `returncode` is
   read at once; `probeReturnCode` is the value read. As written the probe has
   not been waited for, so `returncode` is still `None` and the action always
   starts off (see `ProbeAsWrittenSeedsOff`). A probe that returns no process
   raises: an empty argument list fails in `runMacro` itself, and a list of
   commands returns `None`, whose `returncode` cannot be read.
   */
  function NewToggleable(command: Plain, probe: Option<Plain>, kill: Option<Plain>,
                         probeReturnCode: Option<int>, next: Handle): (r: Outcome<Toggleable>)
    ensures r.Done? ==> r.value.command == command && r.value.kill == kill
    ensures r.Done? ==> r.value.on == r.value.initOn && r.value.proc == None
    ensures r.Done? && r.value.on ==> probe.Some? && probeReturnCode == Some(0)
    ensures probe.None? ==> r.Done? && !r.value.on && r.effects == []
    ensures probe.Some? && LaunchesOne(probe.value) ==>
      r.Done? && r.effects == RunPlain(probe.value, false, next).effects &&
      (r.value.on <==> probeReturnCode == Some(0))
    ensures probe.Some? && !LaunchesOne(probe.value) ==>
      r.Raised? && r.effects == RunPlain(probe.value, false, next).effects
    ensures r.next >= next && SpawnsBetween(r.effects, next, r.next)
  {
    match probe
    case None => Done(Toggleable(command, kill, false, false, None), [], next)
    case Some(p) =>
      match RunPlain(p, false, next)
      case Raised(e, f) => Raised(e, f)
      case Done(h, e, f) =>
        if h.None? then Raised(e, f)
        else
          var on := probeReturnCode == Some(0);
          Done(Toggleable(command, kill, on, on, None), e, f)
  }

  /**
   `ToggleableAction.toggle`. Turning on launches the command in a new session
   and keeps whatever handle it returns. Turning off asks the kept process to
   stop; with no process kept it runs the fallback kill command instead, and
   with neither it calls `terminate` on `None`, which raises before the state
   changes.
   */
  function Toggle(t: Toggleable, next: Handle): (r: Outcome<Toggleable>)
    ensures r.Done? ==> r.value.on == !t.on
    ensures r.Done? ==> r.value.command == t.command && r.value.kill == t.kill && r.value.initOn == t.initOn
    ensures !t.on ==> (r.Raised? <==> RunPlain(t.command, true, next).Raised?)
    ensures !t.on ==>
      r.effects == RunPlain(t.command, true, next).effects && r.next == RunPlain(t.command, true, next).next
    ensures !t.on && r.Done? ==> r.value.proc == RunPlain(t.command, true, next).value
    ensures t.on && t.proc.Some? ==>
      r == Done(t.(on := false), [Terminate(t.proc.value)], next)
    ensures t.on && t.proc.None? && t.kill.Some? ==>
      (r.Raised? <==> RunPlain(t.kill.value, true, next).Raised?) &&
      r.effects == RunPlain(t.kill.value, true, next).effects && r.next == RunPlain(t.kill.value, true, next).next
    ensures t.on && t.proc.None? && t.kill.Some? && r.Done? ==> r.value == t.(on := false)
    ensures t.on && t.proc.None? && t.kill.None? ==> r == Raised([], next)
    ensures r.next >= next
  {
    if !t.on then
      match RunPlain(t.command, true, next)
      case Raised(e, f) => Raised(e, f)
      case Done(h, e, f) => Done(t.(on := true, proc := h), e, f)
    else if t.proc.None? && t.kill.Some? then
      match RunPlain(t.kill.value, true, next)
      case Raised(e, f) => Raised(e, f)
      case Done(_, e, f) => Done(t.(on := false), e, f)
    else if t.proc.None? then
      Raised([], next)
    else
      Done(t.(on := false), [Terminate(t.proc.value)], next)
  }

  /**
   `runMacro`: a toggleable action is toggled and nothing is returned; a plain
   macro is launched in a new session and the handle, if any, is returned.
   Only a toggleable action changes.
   */
  function RunMacro(a: Action, next: Handle): (r: Outcome<(Action, Option<Handle>)>)
    ensures a.Macro? && r.Done? ==>
      RunPlain(a.plain, true, next).Done? && r.value == (a, RunPlain(a.plain, true, next).value)
    ensures a.Macro? ==> r.effects == RunPlain(a.plain, true, next).effects && r.next == RunPlain(a.plain, true, next).next
    ensures a.Macro? ==> (r.Raised? <==> RunPlain(a.plain, true, next).Raised?)
    ensures a.Switch? ==> (r.Raised? <==> Toggle(a.toggle, next).Raised?)
    ensures a.Switch? ==> r.effects == Toggle(a.toggle, next).effects && r.next == Toggle(a.toggle, next).next
    ensures a.Switch? && r.Done? ==> r.value == (Switch(Toggle(a.toggle, next).value), None)
    ensures r.next >= next
  {
    match a
    case Macro(p) =>
      (match RunPlain(p, true, next)
       case Raised(e, f) => Raised(e, f)
       case Done(h, e, f) => Done((a, h), e, f))
    case Switch(t) =>
      match Toggle(t, next)
      case Raised(e, f) => Raised(e, f)
      case Done(t', e, f) => Done((Switch(t'), None), e, f)
  }

  /** The argument a single-launch macro hands to `Popen`. */
  function LaunchArgv(p: Plain): Argv
    requires LaunchesOne(p)
  {
    Launches(p)[0]
  }

  /** `toggle()` called `n` times in a row, stopping at the first exception. */
  function ToggleTimes(t: Toggleable, n: nat, next: Handle): Outcome<Toggleable>
  {
    if n == 0 then Done(t, [], next)
    else
      match ToggleTimes(t, n - 1, next)
      case Raised(e, f) => Raised(e, f)
      case Done(t', e, f) =>
        match Toggle(t', f)
        case Raised(e', f') => Raised(e + e', f')
        case Done(t'', e', f') => Done(t'', e + e', f')
  }

  /** The effects of `m` complete on-off cycles: start a process, then stop that same process. */
  function Cycles(argv: Argv, first: Handle, m: nat): seq<Effect> {
    if m == 0 then []
    else Cycles(argv, first, m - 1) + [Spawn(argv, first + m - 1, true), Terminate(first + m - 1)]
  }

  /**
   From off, with a command that starts one process, toggling alternates
   strictly: after an even number `2m` of toggles the action is off again,
   after `2m + 1` it is on and holds the process it started last, and every
   turn-off asked exactly the process of the preceding turn-on to stop.
   */
  lemma ToggleAlternates(t: Toggleable, m: nat, next: Handle)
    requires !t.on && LaunchesOne(t.command)
    ensures var r := ToggleTimes(t, 2 * m, next);
      && r.Done? && !r.value.on
      && r.next == next + m
      && r.effects == Cycles(LaunchArgv(t.command), next, m)
    ensures var r := ToggleTimes(t, 2 * m + 1, next);
      && r.Done? && r.value.on
      && r.value.proc == Some(next + m)
      && r.next == next + m + 1
      && r.effects == Cycles(LaunchArgv(t.command), next, m) + [Spawn(LaunchArgv(t.command), next + m, true)]
  {
    ToggleEven(t, m, next);
    ToggleOdd(t, m, next);
  }

  /** The even half of `ToggleAlternates`: `2m` toggles end off after `m` full cycles. */
  lemma {:induction false} ToggleEven(t: Toggleable, m: nat, next: Handle)
    requires !t.on && LaunchesOne(t.command)
    ensures var r := ToggleTimes(t, 2 * m, next);
      && r.Done? && !r.value.on
      && r.value.command == t.command
      && r.next == next + m
      && r.effects == Cycles(LaunchArgv(t.command), next, m)
    decreases m, 0
  {
    if m == 0 {
      assert ToggleTimes(t, 0, next) == Done(t, [], next);
    } else {
      var argv := LaunchArgv(t.command);
      var h := next + m - 1;
      ToggleOdd(t, m - 1, next);
      var on := ToggleTimes(t, 2 * m - 1, next);
      ThenTurnOff(t, 2 * m, next);
      var cycles := Cycles(argv, next, m - 1);
      assert on.effects == cycles + [Spawn(argv, h, true)];
      assert Cycles(argv, next, m) == cycles + [Spawn(argv, h, true), Terminate(h)];
    }
  }

  /** The odd half of `ToggleAlternates`: one more toggle starts a fresh process. */
  lemma {:induction false} ToggleOdd(t: Toggleable, m: nat, next: Handle)
    requires !t.on && LaunchesOne(t.command)
    ensures var r := ToggleTimes(t, 2 * m + 1, next);
      && r.Done? && r.value.on
      && r.value.command == t.command
      && r.value.proc == Some(next + m)
      && r.next == next + m + 1
      && r.effects == Cycles(LaunchArgv(t.command), next, m) + [Spawn(LaunchArgv(t.command), next + m, true)]
    decreases m, 1
  {
    ToggleEven(t, m, next);
    ThenTurnOn(t, 2 * m + 1, next);
  }

  /** One more toggle of an action that is on and holds a process stops that process. */
  lemma ThenTurnOff(t: Toggleable, n: nat, next: Handle)
    requires n > 0
    requires var prev := ToggleTimes(t, n - 1, next);
      prev.Done? && prev.value.on && prev.value.proc.Some?
    ensures var prev := ToggleTimes(t, n - 1, next);
      ToggleTimes(t, n, next) ==
        Done(prev.value.(on := false), prev.effects + [Terminate(prev.value.proc.value)], prev.next)
  {
    var prev := ToggleTimes(t, n - 1, next);
    TurnOff(prev.value, prev.next);
    ToggleTimesNext(t, n, next);
  }

  /** One more toggle of an action that is off starts its single-launch command. */
  lemma ThenTurnOn(t: Toggleable, n: nat, next: Handle)
    requires n > 0
    requires var prev := ToggleTimes(t, n - 1, next);
      prev.Done? && !prev.value.on && LaunchesOne(prev.value.command)
    ensures var prev := ToggleTimes(t, n - 1, next);
      ToggleTimes(t, n, next) ==
        Done(prev.value.(on := true, proc := Some(prev.next)),
             prev.effects + [Spawn(LaunchArgv(prev.value.command), prev.next, true)], prev.next + 1)
  {
    var prev := ToggleTimes(t, n - 1, next);
    TurnOn(prev.value, prev.next);
    ToggleTimesNext(t, n, next);
  }

  /** `n` toggles are `n - 1` toggles followed by one more. */
  lemma ToggleTimesNext(t: Toggleable, n: nat, next: Handle)
    requires n > 0 && ToggleTimes(t, n - 1, next).Done?
    ensures var prev := ToggleTimes(t, n - 1, next);
      var step := Toggle(prev.value, prev.next);
      ToggleTimes(t, n, next) ==
        if step.Raised? then Raised(prev.effects + step.effects, step.next)
        else Done(step.value, prev.effects + step.effects, step.next)
  {
  }

  /** Turning on with a single-launch command starts it and keeps its handle. */
  lemma TurnOn(t: Toggleable, next: Handle)
    requires !t.on && LaunchesOne(t.command)
    ensures Toggle(t, next) ==
      Done(t.(on := true, proc := Some(next)), [Spawn(LaunchArgv(t.command), next, true)], next + 1)
  {
  }

  /** Turning off while holding a process asks that process to stop. */
  lemma TurnOff(t: Toggleable, next: Handle)
    requires t.on && t.proc.Some?
    ensures Toggle(t, next) == Done(t.(on := false), [Terminate(t.proc.value)], next)
  {
  }

  /** As written, the probe's `returncode` is read before the probe has exited, so it is `None`. */
  lemma ProbeAsWrittenSeedsOff(command: Plain, probe: Option<Plain>, kill: Option<Plain>, next: Handle)
    ensures var r := NewToggleable(command, probe, kill, None, next);
      r.Done? ==> !r.value.on && !r.value.initOn
  {
  }

  /** Whether running a plain macro gets past every check the model makes. */
  predicate Runs(p: Plain) {
    match p
    case Simple(_) => true
    case Composite(args) => args != []
    case Sequence(first, rest) => first != [] && forall i :: 0 <= i < |rest| ==> rest[i] != Vector([])
  }

  /** Whether `toggle()` would return normally, whatever handles are issued. */
  predicate CanToggle(t: Toggleable) {
    if !t.on then Runs(t.command)
    else t.proc.Some? || (t.kill.Some? && Runs(t.kill.value))
  }

  lemma RunPlainRaisesIff(p: Plain, newSession: bool, next: Handle)
    ensures RunPlain(p, newSession, next).Raised? <==> !Runs(p)
  {
  }

  /** A toggle raises exactly in the two situations the source cannot handle. */
  lemma ToggleRaisesIff(t: Toggleable, next: Handle)
    ensures Toggle(t, next).Raised? <==> !CanToggle(t)
  {
    if !t.on {
      RunPlainRaisesIff(t.command, true, next);
    } else if t.proc.None? && t.kill.Some? {
      RunPlainRaisesIff(t.kill.value, true, next);
    }
  }
}

=== FILE: daemon.dfy ===
/**
 The event loop of `main` as a step function, and the restoring part of the
 SIGTERM handler `shutdown`.

 One step reads one line (or fails to), decodes it and dispatches it. How the
 loop goes on after a step is the caller's business: `Continue` reads the next
 line, `Fatal` is `os.kill(os.getpid(), SIGTERM)` after the `except Exception`
 report, and `LinkFailure` is the `except SerialException` branch, which
 signals the daemon when `keep_alive` is false and otherwise closes and
 reopens the port.
 */
module Daemon {
  import opened Wrappers
  import opened Text
  import Frame
  import Mode
  import opened Actions

  /** One entry of the `macros` dictionary, in insertion order. */
  datatype Entry = Entry(name: string, action: Action)

  type Registry = seq<Entry>

  /** The fixed configuration: the list of modes (each a list of macro names) and `keep_alive`. */
  datatype Config = Config(modes: seq<seq<string>>, keepAlive: bool)

  /** What the loop keeps between iterations: `current_mode`, the macros, the next handle. */
  datatype State = State(mode: nat, registry: Registry, next: Handle)

  /** The result of one `readline()`: a line, or a `SerialException`. */
  datatype Input = Received(line: string) | ReadFailed

  datatype StepOutcome =
    | Continue(state: State, effects: seq<Effect>, out: string)
    | Fatal(state: State, effects: seq<Effect>, out: string)
    | LinkFailure(state: State, reopen: bool)

  predicate ValidState(cfg: Config, s: State) {
    0 < |cfg.modes| && s.mode < |cfg.modes|
  }

  /** `macros[name]`: the position of the key; `None` stands for the `KeyError`. */
  function Lookup(reg: Registry, name: string): (r: Option<nat>)
    ensures r.Some? ==> r.value < |reg| && reg[r.value].name == name
    ensures r.Some? ==> forall j :: 0 <= j < r.value ==> reg[j].name != name
    ensures r.None? <==> forall j :: 0 <= j < |reg| ==> reg[j].name != name
  {
    if reg == [] then None
    else if reg[0].name == name then Some(0)
    else match Lookup(reg[1..], name)
      case None => None
      case Some(k) => Some(k + 1)
  }

  /** The keys of a dictionary are distinct. */
  predicate UniqueNames(reg: Registry) {
    forall i, j :: 0 <= i < j < |reg| ==> reg[i].name != reg[j].name
  }

  /** Among distinct keys, the entry `Lookup` finds is the only one with that name. */
  lemma LookupUnique(reg: Registry, name: string)
    requires UniqueNames(reg) && Lookup(reg, name).Some?
    ensures forall j :: 0 <= j < |reg| && reg[j].name == name ==> j == Lookup(reg, name).value
  {
  }

  const ButtonPressed: string := "btn_pressed"
  const ModeChanged: string := "mode_changed"

  /** `btn_pressed=<arg>`: look the macro up through the current mode and run it. */
  function PressButton(cfg: Config, s: State, arg: string): (r: StepOutcome)
    requires ValidState(cfg, s)
    requires Frame.IsArgText(arg)
    ensures r.state.mode == s.mode && r.state.next >= s.next && !r.LinkFailure?
    ensures r.state.registry != s.registry ==> r.Continue? && |r.state.registry| == |s.registry|
    ensures forall j :: 0 <= j < |r.state.registry| ==> r.state.registry[j].name == s.registry[j].name
  {
    match ParseInt(arg)
    case None => Fatal(s, [], "")
    case Some(n) =>
      match Mode.Resolve(cfg.modes[s.mode], n)
      case None => Fatal(s, [], "")
      case Some(name) =>
        match Lookup(s.registry, name)
        case None => Fatal(s, [], "")
        case Some(k) =>
          match RunMacro(s.registry[k].action, s.next)
          case Raised(e, f) => Fatal(s.(next := f), e, "")
          case Done((a, _), e, f) =>
            Continue(s.(registry := s.registry[k := Entry(name, a)], next := f), e, "")
  }

  /**
   `mode_changed=<arg>`: the new mode is stored first and announced after, so
   a write that fails leaves the daemon in the new mode; a mode name outside
   ASCII stops the announcement at that character with an exception.
   */
  function ChangeMode(cfg: Config, s: State, arg: string, writable: bool): (r: StepOutcome)
    requires ValidState(cfg, s)
    requires Frame.IsArgText(arg)
    ensures ValidState(cfg, r.state)
    ensures r.state.registry == s.registry && r.state.next == s.next
    ensures r.LinkFailure? ==> r.reopen == cfg.keepAlive
  {
    match ParseInt(arg)
    case None => Fatal(s, [], "")
    case Some(d) =>
      var s' := s.(mode := Mode.NextMode(s.mode, d, |cfg.modes|));
      if !writable then LinkFailure(s', cfg.keepAlive)
      else
        var (out, ok) := Mode.AsciiPrefix(Mode.Announce(cfg.modes[s'.mode]));
        if ok then Continue(s', [], out) else Fatal(s', [], out)
  }

  /**
   One iteration of the loop in `main`. `writable` says whether the port
   accepts writes during this iteration.
   */
  function Step(cfg: Config, s: State, input: Input, writable: bool): (r: StepOutcome)
    requires ValidState(cfg, s)
    ensures ValidState(cfg, r.state)
    ensures r.state.next >= s.next
    ensures r.LinkFailure? ==> r.reopen == cfg.keepAlive
    ensures input.ReadFailed? ==> r == LinkFailure(s, cfg.keepAlive)
    ensures r.state.registry != s.registry ==> r.Continue? && |r.state.registry| == |s.registry|
  {
    match input
    case ReadFailed => LinkFailure(s, cfg.keepAlive)
    case Received(line) =>
      match Frame.Decode(line)
      case None => Continue(s, [], "")
      case Some(c) =>
        Frame.DecodeShape(line);
        if c.name == ButtonPressed then PressButton(cfg, s, c.arg)
        else if c.name == ModeChanged then ChangeMode(cfg, s, c.arg, writable)
        else Continue(s, [], "")
  }

  /** A toggleable entry whose state differs from the one it started in. */
  predicate NeedsRestore(a: Action) {
    a.Switch? && a.toggle.on != a.toggle.initOn
  }

  /** `after` is `before` put back the way the shutdown handler promises. */
  predicate RestoredFrom(before: Action, after: Action) {
    if !NeedsRestore(before) then after == before
    else
      && after.Switch?
      && after.toggle.on == before.toggle.initOn
      && after.toggle.initOn == before.toggle.initOn
      && after.toggle.command == before.toggle.command
      && after.toggle.kill == before.toggle.kill
  }

  /** A drifted entry whose toggle is bound to raise. */
  predicate Stuck(a: Action) {
    NeedsRestore(a) && !CanToggle(a.toggle)
  }

  /** The position of the first stuck entry, or `|reg|` when there is none. */
  function FirstStuck(reg: Registry): (k: nat)
    ensures k <= |reg|
    ensures k < |reg| ==> Stuck(reg[k].action)
    ensures forall j :: 0 <= j < k ==> !Stuck(reg[j].action)
  {
    if reg == [] || Stuck(reg[0].action) then 0 else 1 + FirstStuck(reg[1..])
  }

  /**
   The body of the restore loop for one entry: an action that has drifted from
   its initial state is toggled once; any other entry is left as it is.
   */
  function RestoreEntry(a: Action, next: Handle): (r: Outcome<Action>)
    ensures r.next >= next
    ensures r.Done? ==> RestoredFrom(a, r.value)
    ensures r.Raised? <==> NeedsRestore(a) && !CanToggle(a.toggle)
    ensures !NeedsRestore(a) ==> r == Done(a, [], next)
  {
    if !NeedsRestore(a) then Done(a, [], next)
    else
      ToggleRaisesIff(a.toggle, next);
      match Toggle(a.toggle, next)
      case Raised(e, f) => Raised(e, f)
      case Done(t, e, f) => Done(Switch(t), e, f)
  }

  /**
   The loop of `shutdown` over `macros.items()`: every toggleable action whose
   state differs from its initial one is toggled once, in dictionary order;
   a toggle that raises ends the loop.
   */
  function Restore(reg: Registry, next: Handle): (r: Outcome<Registry>)
    ensures r.next >= next
    ensures r.Done? ==> |r.value| == |reg|
    ensures r.Done? ==> forall i :: 0 <= i < |reg| ==>
      r.value[i].name == reg[i].name && RestoredFrom(reg[i].action, r.value[i].action)
    ensures r.Raised? <==> exists i :: 0 <= i < |reg| && NeedsRestore(reg[i].action) && !CanToggle(reg[i].action.toggle)
    ensures (forall i :: 0 <= i < |reg| ==> !NeedsRestore(reg[i].action)) ==> r == Done(reg, [], next)
  {
    if reg == [] then Done([], [], next)
    else
      var head := reg[0];
      assert reg == [head] + reg[1..];
      match RestoreEntry(head.action, next)
      case Raised(e, f) => Raised(e, f)
      case Done(a, e, f) =>
        match Restore(reg[1..], f)
        case Raised(e', f') => Raised(e + e', f')
        case Done(rest, e', f') => Done([Entry(head.name, a)] + rest, e + e', f')
  }

  /** An effect with the handle of a started process left out: what was started, or which process was asked to stop. */
  datatype Act = Start(argv: Argv, newSession: bool) | Stop(handle: Handle)

  function Erase(effects: seq<Effect>): (r: seq<Act>)
    ensures |r| == |effects|
  {
    seq(|effects|, i requires 0 <= i < |effects| =>
      match effects[i]
      case Spawn(argv, _, newSession) => Start(argv, newSession)
      case Terminate(h) => Stop(h))
  }

  lemma EraseAppend(a: seq<Effect>, b: seq<Effect>)
    ensures Erase(a + b) == Erase(a) + Erase(b)
  {
  }

  /** Starting every command of `argvs` in order, in new sessions. */
  function Starts(argvs: seq<Argv>): (r: seq<Act>)
    ensures |r| == |argvs|
  {
    seq(|argvs|, i requires 0 <= i < |argvs| => Start(argvs[i], true))
  }

  /**
   What restoring one entry should do: nothing for an entry that has not
   drifted; a drifted action that is off starts its command; one that is on
   stops the process it holds, or else starts its fallback kill command.
   */
  function RestorePlan(a: Action): seq<Act> {
    if !NeedsRestore(a) then []
    else if !a.toggle.on then Starts(Launches(a.toggle.command))
    else if a.toggle.proc.Some? then [Stop(a.toggle.proc.value)]
    else if a.toggle.kill.Some? then Starts(Launches(a.toggle.kill.value))
    else []
  }

  /** The plans of all entries, in dictionary order. */
  function Plan(reg: Registry): seq<Act> {
    if reg == [] then [] else RestorePlan(reg[0].action) + Plan(reg[1..])
  }

  /** A plain macro run in a new session starts its commands in order, as far as it gets. */
  lemma RunPlainStarts(p: Plain, next: Handle)
    ensures var r := RunPlain(p, true, next);
      && Erase(r.effects) == Starts(Launches(p))[..|r.effects|]
      && (r.Done? ==> Erase(r.effects) == Starts(Launches(p)))
  {
  }

  /** Toggling a drifted action does what its plan says, or the start of it when it raises. */
  lemma ToggleFollowsPlan(t: Toggleable, next: Handle)
    requires NeedsRestore(Switch(t))
    ensures var r := Toggle(t, next);
      && Erase(r.effects) <= RestorePlan(Switch(t))
      && (r.Done? ==> Erase(r.effects) == RestorePlan(Switch(t)))
  {
    if !t.on {
      RunPlainStarts(t.command, next);
    } else if t.proc.None? && t.kill.Some? {
      RunPlainStarts(t.kill.value, next);
    }
  }

  /** The plan of the first `m` entries starts with the plan of the first one. */
  lemma PlanOfFirst(reg: Registry, m: nat)
    requires 1 <= m <= |reg|
    ensures Plan(reg[..m]) == RestorePlan(reg[0].action) + Plan(reg[1..][..m - 1])
  {
    assert reg[..m][0] == reg[0];
    assert reg[..m][1..] == reg[1..][..m - 1];
  }

  lemma PrefixPrepend<T>(x: seq<T>, a: seq<T>, b: seq<T>)
    requires a <= b
    ensures x + a <= x + b
  {
    assert (x + b)[..|x + a|] == x + a;
  }

  /** Bounds on what was done after the first entry carry over to the whole registry. */
  lemma PlansAround(reg: Registry, k: nat, done: seq<Act>)
    requires k + 1 < |reg|
    requires Plan(reg[1..][..k]) <= done && done <= Plan(reg[1..][..k + 1])
    ensures Plan(reg[..k + 1]) <= RestorePlan(reg[0].action) + done
    ensures RestorePlan(reg[0].action) + done <= Plan(reg[..k + 2])
  {
    PlanOfFirst(reg, k + 1);
    PlanOfFirst(reg, k + 2);
    PrefixPrepend(RestorePlan(reg[0].action), Plan(reg[1..][..k]), done);
    PrefixPrepend(RestorePlan(reg[0].action), done, Plan(reg[1..][..k + 1]));
  }

  /** One pass of the loop body carries out the entry's plan, or part of it when it raises. */
  lemma EntryFollowsPlan(a: Action, next: Handle)
    ensures var r := RestoreEntry(a, next);
      && Erase(r.effects) <= RestorePlan(a)
      && (r.Done? ==> Erase(r.effects) == RestorePlan(a))
  {
    if NeedsRestore(a) {
      ToggleFollowsPlan(a.toggle, next);
    }
  }

  /** The loop's effects are those of its first pass followed by those of the rest. */
  lemma RestoreUnfold(reg: Registry, next: Handle)
    requires reg != []
    ensures var r := Restore(reg, next);
      var step := RestoreEntry(reg[0].action, next);
      && (step.Raised? ==> r.Raised? && r.effects == step.effects)
      && (step.Done? ==>
            && r.effects == step.effects + Restore(reg[1..], step.next).effects
            && (r.Raised? <==> Restore(reg[1..], step.next).Raised?))
  {
  }

  /**
   The restore loop carries out the plans of the drifted entries one after
   another in dictionary order: all of them when it completes. When a toggle
   raises, it does so at the first stuck entry, and by then the plans of
   every entry before it have been carried out in full, and part of its own.
   */
  lemma {:induction false} RestoreFollowsPlan(reg: Registry, next: Handle)
    ensures var r := Restore(reg, next);
      && Erase(r.effects) <= Plan(reg)
      && (r.Done? ==> Erase(r.effects) == Plan(reg))
      && (r.Raised? ==> FirstStuck(reg) < |reg|)
      && (r.Raised? ==> Plan(reg[..FirstStuck(reg)]) <= Erase(r.effects))
      && (r.Raised? ==> Erase(r.effects) <= Plan(reg[..FirstStuck(reg) + 1]))
    decreases |reg|
  {
    var r := Restore(reg, next);
    if reg != [] {
      var head := reg[0];
      var plan := RestorePlan(head.action);
      assert Plan(reg) == plan + Plan(reg[1..]);
      var step := RestoreEntry(head.action, next);
      EntryFollowsPlan(head.action, next);
      RestoreUnfold(reg, next);
      if step.Raised? {
        assert FirstStuck(reg) == 0;
        assert reg[..0] == [];
        PlanOfFirst(reg, 1);
        assert reg[1..][..0] == [];
        PrefixPrepend(Erase(r.effects), [], Plan(reg[1..]));
      } else {
        var rest := Restore(reg[1..], step.next);
        RestoreFollowsPlan(reg[1..], step.next);
        EraseAppend(step.effects, rest.effects);
        PrefixPrepend(plan, Erase(rest.effects), Plan(reg[1..]));
        if r.Raised? {
          var k := FirstStuck(reg[1..]);
          assert FirstStuck(reg) == k + 1;
          PlansAround(reg, k, Erase(rest.effects));
        }
      }
    }
  }

  /** Every step of an entry's plan is part of the whole plan. */
  lemma {:induction false} PlanHas(reg: Registry, i: nat)
    requires i < |reg|
    ensures forall x :: x in RestorePlan(reg[i].action) ==> x in Plan(reg)
    decreases i
  {
    assert Plan(reg) == RestorePlan(reg[0].action) + Plan(reg[1..]);
    if i > 0 {
      PlanHas(reg[1..], i - 1);
    }
  }

  const HostDisconnect: string := "host_disconnect\0\n"

  datatype ShutdownOutcome =
    | Finished(registry: Registry, effects: seq<Effect>, out: string)
    | Interrupted(effects: seq<Effect>)

  /**
   `shutdown`: restore the toggleable actions, then, if the port is open,
   write the disconnect notice (a failed write is reported and ignored) and
   close it; after that the PID file is removed and the process exits with 0.
   An exception while restoring leaves the handler before the notice.
   */
  function Shutdown(reg: Registry, next: Handle, linkOpen: bool, writable: bool): (r: ShutdownOutcome)
    ensures r.Finished? ==> |r.registry| == |reg|
    ensures r.Finished? ==> forall i :: 0 <= i < |reg| ==>
      && r.registry[i].name == reg[i].name
      && RestoredFrom(reg[i].action, r.registry[i].action)
      && (r.registry[i].action.Switch? ==> r.registry[i].action.toggle.on == r.registry[i].action.toggle.initOn)
    ensures r.Finished? ==> (r.out == HostDisconnect <==> linkOpen && writable)
    ensures r.Finished? ==> (r.out == "" <==> !(linkOpen && writable))
    ensures r.Interrupted? <==> exists i :: 0 <= i < |reg| && NeedsRestore(reg[i].action) && !CanToggle(reg[i].action.toggle)
    ensures r.Finished? ==> Erase(r.effects) == Plan(reg)
    ensures r.Interrupted? ==> Erase(r.effects) <= Plan(reg)
    ensures r.Interrupted? ==> FirstStuck(reg) < |reg|
    ensures r.Interrupted? ==>
      Plan(reg[..FirstStuck(reg)]) <= Erase(r.effects) && Erase(r.effects) <= Plan(reg[..FirstStuck(reg) + 1])
  {
    RestoreFollowsPlan(reg, next);
    match Restore(reg, next)
    case Raised(e, _) => Interrupted(e)
    case Done(reg', e, _) => Finished(reg', e, if linkOpen && writable then HostDisconnect else "")
  }

  /** Lines that do not decode, and commands other than the two known ones, change nothing. */
  lemma StepIgnores(cfg: Config, s: State, line: string, writable: bool)
    requires ValidState(cfg, s)
    requires Frame.Decode(line).None? ||
             (Frame.Decode(line).value.name != ButtonPressed && Frame.Decode(line).value.name != ModeChanged)
    ensures Step(cfg, s, Received(line), writable) == Continue(s, [], "")
  {
  }

  /** A decoded line is handed to the handler its command name selects. */
  lemma StepDispatch(cfg: Config, s: State, line: string, writable: bool, c: Frame.Command)
    requires ValidState(cfg, s)
    requires Frame.Decode(line) == Some(c)
    ensures Frame.IsArgText(c.arg)
    ensures Step(cfg, s, Received(line), writable) ==
      if c.name == ButtonPressed then PressButton(cfg, s, c.arg)
      else if c.name == ModeChanged then ChangeMode(cfg, s, c.arg, writable)
      else Continue(s, [], "")
  {
    Frame.DecodeShape(line);
  }

  /**
   What `mode_changed=<arg>` promises: an argument that is not a number is
   fatal and changes nothing; otherwise the mode becomes `(m + d) mod
   len(modes)` whatever happens next. A port that takes no writes makes it a
   link failure in the new mode; otherwise the announcement is written up to
   its first character outside ASCII, and the step goes on exactly when there
   is none.
   */
  predicate ModeChangeOutcome(cfg: Config, s: State, arg: string, writable: bool, r: StepOutcome)
    requires ValidState(cfg, s)
  {
    && (ParseInt(arg).None? ==> r == Fatal(s, [], ""))
    && (ParseInt(arg).Some? ==>
         var m := (s.mode + ParseInt(arg).value) % |cfg.modes|;
         var written := Mode.AsciiPrefix(Mode.Announce(cfg.modes[m]));
         && r.state == s.(mode := m)
         && (!writable ==> r == LinkFailure(s.(mode := m), cfg.keepAlive))
         && (writable ==>
              && !r.LinkFailure?
              && r.effects == []
              && r.out == written.0
              && (r.Continue? <==> written.1)))
  }

  lemma ChangeModeSpec(cfg: Config, s: State, arg: string, writable: bool)
    requires ValidState(cfg, s) && Frame.IsArgText(arg)
    ensures ModeChangeOutcome(cfg, s, arg, writable, ChangeMode(cfg, s, arg, writable))
  {
  }

  /**
   `mode_changed=d` moves to `(m + d) mod len(modes)` and leaves the macros
   alone; with the port writable it announces the new mode (cut short by a
   name outside ASCII), and with the port failing it reports a link failure
   in the new mode. An argument that is not a number is fatal and changes nothing.
   */
  lemma StepModeChanged(cfg: Config, s: State, line: string, arg: string, writable: bool)
    requires ValidState(cfg, s)
    requires Frame.Decode(line) == Some(Frame.Command(ModeChanged, arg))
    ensures ModeChangeOutcome(cfg, s, arg, writable, Step(cfg, s, Received(line), writable))
  {
    StepDispatch(cfg, s, line, writable, Frame.Command(ModeChanged, arg));
    ChangeModeSpec(cfg, s, arg, writable);
  }

  /**
   A dial move to a mode whose names are all ASCII, on a writable port, sends
   the complete announcement and carries on.
   */
  lemma ModeAnnouncedWhole(cfg: Config, s: State, line: string, arg: string, writable: bool)
    requires ValidState(cfg, s) && writable
    requires Frame.Decode(line) == Some(Frame.Command(ModeChanged, arg))
    requires ParseInt(arg).Some?
    requires Mode.AsciiNames(cfg.modes[(s.mode + ParseInt(arg).value) % |cfg.modes|])
    ensures var m := (s.mode + ParseInt(arg).value) % |cfg.modes|;
      Step(cfg, s, Received(line), writable) == Continue(s.(mode := m), [], Mode.Announce(cfg.modes[m]))
  {
    var m := (s.mode + ParseInt(arg).value) % |cfg.modes|;
    Mode.AnnounceAscii(cfg.modes[m]);
    StepModeChanged(cfg, s, line, arg, writable);
  }

  /**
   The registry position of the macro `btn_pressed=<arg>` names, if the
   argument is a number, its slot exists in the current mode and the name in
   that slot is a key of the dictionary.
   */
  function Pressed(cfg: Config, s: State, arg: string): (k: Option<nat>)
    requires ValidState(cfg, s)
    ensures k.Some? ==> k.value < |s.registry|
  {
    match ParseInt(arg)
    case None => None
    case Some(n) =>
      var slots := cfg.modes[s.mode];
      if !(-|slots| <= n - 1 < |slots|) then None
      else Lookup(s.registry, slots[(n - 1) % |slots|])
  }

  /** Whether a button press ends in the fatal path. */
  predicate PressFailure(cfg: Config, s: State, arg: string)
    requires ValidState(cfg, s)
  {
    || Pressed(cfg, s, arg).None?
    || RunMacro(s.registry[Pressed(cfg, s, arg).value].action, s.next).Raised?
  }

  /**
   What `btn_pressed=<arg>` promises: the mode and the port are left alone; it
   is fatal exactly when `PressFailure` says so, and then no macro entry
   changes. A bad number, a bad index or an unknown name fails before any
   launch, so nothing happens at all; once a macro is found, the effects and
   the handle counter are those of running it, raising or not. When it does
   not raise, only its entry is replaced, by the action the macro returns.
   */
  predicate ButtonOutcome(cfg: Config, s: State, arg: string, r: StepOutcome)
    requires ValidState(cfg, s)
  {
    && r.state.mode == s.mode
    && !r.LinkFailure?
    && r.out == ""
    && (r.Fatal? <==> PressFailure(cfg, s, arg))
    && (r.Fatal? ==> r.state.registry == s.registry)
    && (Pressed(cfg, s, arg).None? ==> r == Fatal(s, [], ""))
    && (Pressed(cfg, s, arg).Some? ==>
         var run := RunMacro(s.registry[Pressed(cfg, s, arg).value].action, s.next);
         r.effects == run.effects && r.state.next == run.next)
    && (!PressFailure(cfg, s, arg) ==>
         var k := Pressed(cfg, s, arg).value;
         var run := RunMacro(s.registry[k].action, s.next);
         && |r.state.registry| == |s.registry|
         && r.state.registry[k] == Entry(s.registry[k].name, run.value.0)
         && forall j :: 0 <= j < |s.registry| && j != k ==> r.state.registry[j] == s.registry[j])
  }

  lemma PressButtonSpec(cfg: Config, s: State, arg: string)
    requires ValidState(cfg, s) && Frame.IsArgText(arg)
    ensures ButtonOutcome(cfg, s, arg, PressButton(cfg, s, arg))
  {
  }

  /**
   `btn_pressed=n` never changes the mode and runs `macros[modes[m][n-1]]`
   with Python's list indexing. It is fatal exactly when the argument is not a
   number, `n-1` is not a valid index, the name is not a macro, or the macro
   raises; only the pressed macro's entry can change.
   */
  lemma StepButtonPressed(cfg: Config, s: State, line: string, arg: string, writable: bool)
    requires ValidState(cfg, s)
    requires Frame.Decode(line) == Some(Frame.Command(ButtonPressed, arg))
    ensures ButtonOutcome(cfg, s, arg, Step(cfg, s, Received(line), writable))
  {
    StepDispatch(cfg, s, line, writable, Frame.Command(ButtonPressed, arg));
    PressButtonSpec(cfg, s, arg);
  }

  /** A step never adds, removes or renames a macro, so the keys stay distinct. */
  lemma StepKeepsNames(cfg: Config, s: State, input: Input, writable: bool)
    requires ValidState(cfg, s)
    ensures var r := Step(cfg, s, input, writable);
      && |r.state.registry| == |s.registry|
      && (forall j :: 0 <= j < |s.registry| ==> r.state.registry[j].name == s.registry[j].name)
      && (UniqueNames(s.registry) ==> UniqueNames(r.state.registry))
  {
    if input.Received? && Frame.Decode(input.line).Some? {
      StepDispatch(cfg, s, input.line, writable, Frame.Decode(input.line).value);
    }
  }

  /** A failed read ends the daemon only when `keep_alive` is off; otherwise the port is reopened. */
  lemma StepReadFailed(cfg: Config, s: State, writable: bool)
    requires ValidState(cfg, s)
    ensures var r := Step(cfg, s, ReadFailed, writable);
      && r.LinkFailure? && r.state == s
      && (r.reopen <==> cfg.keepAlive)
  {
  }

  /** The frame the keypad sends when its mode dial moves by `d`: `b'mode_changed=<d>'`. */
  function ModeFrame(d: int): string {
    "b'" + ModeChanged + "=" + ShowInt(d) + "'"
  }

  /**
   With three modes, from mode 0, `mode_changed=-1` gives mode 2, and from
   there `mode_changed=2` gives mode 1; the macros stay as they are.
   */
  lemma ModeCycleExample(cfg: Config, reg: Registry, next: Handle)
    requires |cfg.modes| == 3
    ensures Step(cfg, State(0, reg, next), Received(ModeFrame(-1)), true).state == State(2, reg, next)
    ensures Step(cfg, State(2, reg, next), Received(ModeFrame(2)), true).state == State(1, reg, next)
  {
    assert (0 + -1) % 3 == 2 && (2 + 2) % 3 == 1;
    StepModeFrame(cfg, State(0, reg, next), -1);
    StepModeFrame(cfg, State(2, reg, next), 2);
  }

  /** The frame for a move of `d` takes any mode `m` to `(m + d) mod len(modes)`. */
  lemma StepModeFrame(cfg: Config, s: State, d: int)
    requires ValidState(cfg, s)
    ensures Step(cfg, s, Received(ModeFrame(d)), true).state == s.(mode := (s.mode + d) % |cfg.modes|)
  {
    DecodeModeChange(d, ShowInt(d), ModeFrame(d));
    ModeChangeBy(cfg, s, d, ShowInt(d), ModeFrame(d));
  }

  /** The frame the keypad sends when its mode dial moves by `d` decodes to that move. */
  lemma DecodeModeChange(d: int, arg: string, line: string)
    requires arg == ShowInt(d)
    requires line == ModeFrame(d)
    ensures Frame.Decode(line) == Some(Frame.Command(ModeChanged, arg))
    ensures ParseInt(arg) == Some(d)
  {
    assert Frame.IsArgText(arg) by {
      if d < 0 {
        assert forall i :: 1 <= i < |arg| ==> arg[i] == arg[1..][i - 1];
      }
    }
    Frame.DecodeRoundTrip(ModeChanged, arg);
    ParseShowInt(d);
  }

  lemma ModeChangeBy(cfg: Config, s: State, d: int, arg: string, line: string)
    requires ValidState(cfg, s)
    requires Frame.Decode(line) == Some(Frame.Command(ModeChanged, arg))
    requires ParseInt(arg) == Some(d)
    ensures Step(cfg, s, Received(line), true).state == s.(mode := (s.mode + d) % |cfg.modes|)
  {
    StepIsChangeMode(cfg, s, line, arg);
    ChangeModeTo(cfg, s, d, arg);
  }

  lemma ChangeModeTo(cfg: Config, s: State, d: int, arg: string)
    requires ValidState(cfg, s) && Frame.IsArgText(arg)
    requires ParseInt(arg) == Some(d)
    ensures ChangeMode(cfg, s, arg, true).state == s.(mode := (s.mode + d) % |cfg.modes|)
  {
  }

  lemma StepIsChangeMode(cfg: Config, s: State, line: string, arg: string)
    requires ValidState(cfg, s)
    requires Frame.Decode(line) == Some(Frame.Command(ModeChanged, arg))
    ensures Frame.IsArgText(arg)
    ensures Step(cfg, s, Received(line), true) == ChangeMode(cfg, s, arg, true)
  {
    StepDispatch(cfg, s, line, true, Frame.Command(ModeChanged, arg));
  }

  /** Every process handle the registry holds was issued before `next`. */
  predicate HandlesBelow(reg: Registry, next: Handle) {
    forall i :: 0 <= i < |reg| ==> reg[i].action.Switch? && reg[i].action.toggle.proc.Some? ==>
      reg[i].action.toggle.proc.value < next
  }

  function StepEffects(r: StepOutcome): seq<Effect> {
    match r
    case Continue(_, e, _) => e
    case Fatal(_, e, _) => e
    case LinkFailure(_, _) => []
  }

  /**
   The daemon only ever asks processes it started itself to stop, and the
   handles it keeps stay among those it has issued.
   */
  lemma StepTerminatesOnlyOwn(cfg: Config, s: State, input: Input, writable: bool)
    requires ValidState(cfg, s) && HandlesBelow(s.registry, s.next)
    ensures var r := Step(cfg, s, input, writable);
      && HandlesBelow(r.state.registry, r.state.next)
      && forall i :: 0 <= i < |StepEffects(r)| ==>
           match StepEffects(r)[i]
           case Terminate(h) => h < s.next
           case Spawn(_, h, _) => s.next <= h < r.state.next
  {
    if input.Received? && Frame.Decode(input.line).Some? {
      var c := Frame.Decode(input.line).value;
      StepDispatch(cfg, s, input.line, writable, c);
      if c.name == ButtonPressed {
        PressButtonHandles(cfg, s, c.arg);
      } else if c.name == ModeChanged {
        ChangeModeSpec(cfg, s, c.arg, writable);
      }
    }
  }

  lemma PressButtonHandles(cfg: Config, s: State, arg: string)
    requires ValidState(cfg, s) && Frame.IsArgText(arg) && HandlesBelow(s.registry, s.next)
    ensures var r := PressButton(cfg, s, arg);
      && HandlesBelow(r.state.registry, r.state.next)
      && forall i :: 0 <= i < |StepEffects(r)| ==>
           match StepEffects(r)[i]
           case Terminate(h) => h < s.next
           case Spawn(_, h, _) => s.next <= h < r.state.next
  {
    var r := PressButton(cfg, s, arg);
    if r.Continue? || (r.Fatal? && r.effects != []) {
      var n := ParseInt(arg).value;
      var name := Mode.Resolve(cfg.modes[s.mode], n).value;
      var k := Lookup(s.registry, name).value;
      RunMacroHandles(s.registry[k].action, s.next);
    }
  }

  lemma RunMacroHandles(a: Action, next: Handle)
    requires a.Switch? && a.toggle.proc.Some? ==> a.toggle.proc.value < next
    ensures var r := RunMacro(a, next);
      && (r.Done? && r.value.0.Switch? && r.value.0.toggle.proc.Some? ==> r.value.0.toggle.proc.value < r.next)
      && forall i :: 0 <= i < |r.effects| ==>
           match r.effects[i]
           case Terminate(h) => h < next
           case Spawn(_, h, _) => next <= h < r.next
  {
    var r := RunMacro(a, next);
    match a
    case Macro(p) =>
      assert SpawnsBetween(r.effects, next, r.next);
    case Switch(t) =>
      if !t.on {
        assert SpawnsBetween(r.effects, next, r.next);
      } else if t.proc.None? && t.kill.Some? {
        assert SpawnsBetween(r.effects, next, r.next);
      }
  }

  /**
   Shutdown toggles exactly the actions that drifted from their initial state:
   afterwards every toggleable action is back in its initial state, unless one
   of them cannot be toggled.
   */
  lemma ShutdownRestores(reg: Registry, next: Handle, linkOpen: bool, writable: bool)
    requires forall i :: 0 <= i < |reg| && NeedsRestore(reg[i].action) ==> CanToggle(reg[i].action.toggle)
    ensures var r := Shutdown(reg, next, linkOpen, writable);
      && r.Finished?
      && forall i :: 0 <= i < |reg| && reg[i].action.Switch? ==>
           r.registry[i].action.Switch? && r.registry[i].action.toggle.on == reg[i].action.toggle.initOn
  {
  }

  /**
   A completed shutdown asks every process that a drifted, switched-on action
   holds to stop.
   */
  lemma ShutdownStopsHeld(reg: Registry, next: Handle, linkOpen: bool, writable: bool, i: nat)
    requires i < |reg| && NeedsRestore(reg[i].action) && reg[i].action.toggle.on
    requires reg[i].action.toggle.proc.Some?
    ensures var r := Shutdown(reg, next, linkOpen, writable);
      r.Finished? ==> Terminate(reg[i].action.toggle.proc.value) in r.effects
  {
    var r := Shutdown(reg, next, linkOpen, writable);
    var h := reg[i].action.toggle.proc.value;
    if r.Finished? {
      PlanHas(reg, i);
      assert Stop(h) in RestorePlan(reg[i].action);
      var j :| 0 <= j < |r.effects| && Erase(r.effects)[j] == Stop(h);
      assert r.effects[j] == Terminate(h);
    }
  }
}

=== FILE: frame.dfy ===
/**
 The frame decoder (`receiveCommand` in unokb.py). A received line reaches the
 decoder as the text Python's `str()` gives a `bytes` value, `b'...'`; two
 regular expressions, both applied with `match` (anchored at the start only),
 turn it into a command name and its argument text:
   - `b'(.*)'` (case-insensitive) strips the wrapper; `.*` is greedy and stops
     at a newline, so the capture ends at the last quote before the first newline;
   - `(.*)=([0-9+-]*)` splits at the last `=` before the first newline; the
     argument is the longest run of digits and signs after it, possibly empty,
     and whatever follows that run is ignored.
 A line that fails either match decodes to `None` (`(None, None)` in the source).
 */
module Frame {
  import opened Wrappers
  import opened Text

  datatype Command = Command(name: string, arg: string)

  /** The characters of the class `[0-9+-]`. */
  predicate IsArgChar(c: char) {
    IsDigit(c) || c == '+' || c == '-'
  }

  predicate IsArgText(s: string) {
    forall i :: 0 <= i < |s| ==> IsArgChar(s[i])
  }

  /** `t` is a capture that `b'(.*)'` can produce at the start of `line`. */
  predicate IsWrapped(line: string, t: string) {
    && |line| >= |t| + 3
    && (line[0] == 'b' || line[0] == 'B')
    && line[1] == '\''
    && line[2..|t| + 2] == t
    && line[|t| + 2] == '\''
    && '\n' !in t
  }

  /** The greedy capture of `b'(.*)'`: the longest possible one. */
  function Unwrap(line: string): (r: Option<string>)
    ensures r.Some? ==> IsWrapped(line, r.value)
    ensures r.Some? ==> forall t :: IsWrapped(line, t) ==> |t| <= |r.value|
    ensures r.None? ==> forall t :: !IsWrapped(line, t)
  {
    if |line| >= 2 && (line[0] == 'b' || line[0] == 'B') && line[1] == '\'' then
      var body := line[2..];
      match LastIndexOf(body, '\'', LineEnd(body))
      case None => None
      case Some(j) => Some(body[..j])
    else
      None
  }

  /** `i` is a place where `(.*)=` can end: an `=` with no newline before it. */
  predicate IsSplitPoint(t: string, i: int) {
    0 <= i < |t| && t[i] == '=' && '\n' !in t[..i]
  }

  /** `a` is the longest run of `[0-9+-]` at the start of `s`. */
  predicate IsArgRun(s: string, a: string) {
    && a <= s
    && IsArgText(a)
    && (|a| == |s| || !IsArgChar(s[|a|]))
  }

  function RunLength(s: string): (n: nat)
    ensures n <= |s| && IsArgText(s[..n])
    ensures n == |s| || !IsArgChar(s[n])
  {
    if s != [] && IsArgChar(s[0]) then
      var n := 1 + RunLength(s[1..]);
      assert s[..n] == [s[0]] + s[1..][..n - 1];
      n
    else 0
  }

  /** The greedy match of `(.*)=([0-9+-]*)` at the start of `t`. */
  function Split(t: string): (r: Option<Command>)
    ensures r.None? <==> forall i :: !IsSplitPoint(t, i)
    ensures r.Some? ==> IsSplitPoint(t, |r.value.name|) && r.value.name == t[..|r.value.name|]
    ensures r.Some? ==> forall i :: IsSplitPoint(t, i) ==> i <= |r.value.name|
    ensures r.Some? ==> IsArgRun(t[|r.value.name| + 1..], r.value.arg)
  {
    var k := LineEnd(t);
    match LastIndexOf(t, '=', k)
    case None =>
      None
    case Some(i) =>
      assert IsSplitPoint(t, i);
      var rest := t[i + 1..];
      var r := Command(t[..i], rest[..RunLength(rest)]);
      Some(r)
  }

  /**
   `receiveCommand`: the command name and argument text of one received line.
   It fails exactly when the wrapper is missing or the text inside it has no
   `=`; a command it yields has a newline-free name and a sign/digit argument.
   */
  function Decode(line: string): (r: Option<Command>)
    ensures r.None? <==> Unwrap(line).None? || '=' !in Unwrap(line).value
    ensures r.Some? ==> '\n' !in r.value.name && IsArgText(r.value.arg)
  {
    match Unwrap(line)
    case None => None
    case Some(t) =>
      SplitNeedsEquals(t);
      Split(t)
  }

  /** The split of an unwrapped text needs an `=` and nothing else. */
  lemma SplitNeedsEquals(t: string)
    requires '\n' !in t
    ensures Split(t).None? <==> '=' !in t
  {
    if '=' in t {
      var i :| 0 <= i < |t| && t[i] == '=';
      assert IsSplitPoint(t, i);
    }
  }

  /**
   A line decodes to nothing exactly when it does not start with `b'` (or `B'`)
   followed by a closing quote, or when the text inside the wrapper has no `=`.
   */
  lemma DecodeRejects(line: string)
    ensures Decode(line).None? <==>
      (forall t :: !IsWrapped(line, t)) || '=' !in Unwrap(line).value
  {
    match Unwrap(line)
    case None =>
    case Some(t) => SplitNeedsEquals(t);
  }

  /** A maximal run of argument characters is determined by the text it starts. */
  lemma ArgRunUnique(s: string, a: string, b: string)
    requires IsArgRun(s, a) && IsArgRun(s, b)
    ensures a == b
  {
  }

  /** A slice of a slice is a slice of the whole. */
  lemma SliceWithin(line: string, t: string, off: nat, lo: nat, hi: nat)
    requires off + |t| <= |line| && line[off..off + |t|] == t
    requires lo <= hi <= |t|
    ensures line[off + lo..off + hi] == t[lo..hi]
  {
    forall i | lo <= i < hi
      ensures t[i] == line[off + i]
    {
      assert t[i] == line[off..off + |t|][i];
    }
  }

  /** The layout of a line around a wrapped text `t` split into `c`. */
  lemma ShapeOfParts(line: string, t: string, c: Command)
    requires IsWrapped(line, t)
    requires IsSplitPoint(t, |c.name|) && c.name == t[..|c.name|]
    requires IsArgRun(t[|c.name| + 1..], c.arg)
    ensures |line| >= |c.name| + |c.arg| + 4
    ensures line[2..|c.name| + 2] == c.name
    ensures line[|c.name| + 2] == '='
    ensures line[|c.name| + 3..|c.name| + 3 + |c.arg|] == c.arg
    ensures '\n' !in c.name
  {
    var n := |c.name|;
    assert t[n + 1..n + 1 + |c.arg|] == c.arg by {
      assert t[n + 1..][..|c.arg|] == c.arg;
    }
    SliceWithin(line, t, 2, 0, n);
    assert line[n + 2] == line[2..|t| + 2][n];
    SliceWithin(line, t, 2, n + 1, n + 1 + |c.arg|);
    assert '\n' !in c.name by {
      assert forall i :: 0 <= i < n ==> c.name[i] == t[i];
    }
  }

  /** Whatever a decoded command looks like, it sits in the line in this shape. */
  lemma DecodeShape(line: string)
    requires Decode(line).Some?
    ensures var c := Decode(line).value;
      && |line| >= |c.name| + |c.arg| + 4
      && (line[0] == 'b' || line[0] == 'B') && line[1] == '\''
      && line[2..|c.name| + 2] == c.name
      && line[|c.name| + 2] == '='
      && line[|c.name| + 3..|c.name| + 3 + |c.arg|] == c.arg
      && '\n' !in c.name
      && IsArgText(c.arg)
  {
    var t := Unwrap(line).value;
    var c := Split(t).value;
    assert Decode(line) == Some(c);
    ShapeOfParts(line, t, c);
  }

  /** Wrapping a text without a newline and unwrapping it gives the text back. */
  lemma UnwrapWrapped(t: string)
    requires '\n' !in t
    ensures Unwrap("b'" + t + "'") == Some(t)
  {
    var line := "b'" + t + "'";
    assert line[2..|t| + 2] == t;
    assert IsWrapped(line, t);
    var u := Unwrap(line).value;
    assert IsWrapped(line, u);
    assert |u| == |t|;
  }

  /** Splitting `name=arg` gives the name and the argument back. */
  lemma SplitJoined(name: string, arg: string)
    requires '\n' !in name
    requires IsArgText(arg)
    ensures Split(name + "=" + arg) == Some(Command(name, arg))
  {
    var t := name + "=" + arg;
    assert IsSplitPoint(t, |name|) by {
      assert t[..|name|] == name;
    }
    var c := Split(t).value;
    forall i | |name| < i < |t|
      ensures t[i] != '='
    {
      assert t[i] == arg[i - |name| - 1];
      assert IsArgChar(arg[i - |name| - 1]);
    }
    assert |c.name| == |name|;
    assert c.name == name;
    assert t[|name| + 1..] == arg;
    assert IsArgRun(arg, arg);
    ArgRunUnique(arg, arg, c.arg);
  }

  /**
   Wrapping `name=arg` as `b'...'` and decoding it gives the command back, for
   every name without a newline (it may contain `=` and quotes) and every
   argument made of digits and signs (it may be empty or not a number). This
   is a statement about the text the decoder receives, which is what `str()`
   makes of the line's bytes.
   */
  lemma DecodeRoundTrip(name: string, arg: string)
    requires '\n' !in name
    requires IsArgText(arg)
    ensures Decode("b'" + name + "=" + arg + "'") == Some(Command(name, arg))
  {
    var t := name + "=" + arg;
    assert '\n' !in arg by {
      forall i | 0 <= i < |arg| ensures arg[i] != '\n' {
        assert IsArgChar(arg[i]);
      }
    }
    assert '\n' !in t by {
      assert forall i :: 0 <= i < |t| ==> t[i] == '=' || t[i] in name || t[i] in arg;
    }
    assert "b'" + name + "=" + arg + "'" == "b'" + t + "'";
    UnwrapWrapped(t);
    SplitJoined(name, arg);
  }
}

=== FILE: lifecycle.dfy ===
/**
 The start-up decision made at module level in unokb.py, before the daemon
 context is entered: the PID file decides whether this invocation stops a
 running daemon, becomes the daemon, or fails. File contents, the result of
 signalling the recorded process and the result of writing the file are the
 operating system's and are inputs here.
 */
module Lifecycle {
  import opened Wrappers
  import opened Text

  datatype PidFile = Absent | Present(text: string)

  /** What `os.kill(pid, SIGTERM)` did. */
  datatype Signal = Delivered | NoSuchProcess | NotPermitted

  datatype Decision =
    | StopOther(pid: int)        // signalled the running daemon, `sys.exit(0)`
    | SignalGroup(pid: int)      // `os.kill` of 0 or below: a process group, or every process, was signalled
    | Proceed(staleWarning: bool)// wrote our PID and enters the main loop
    | ExitFailure                // the PID could not be written, `sys.exit(1)`
    | Uncaught                   // an exception the script does not catch ends it

  datatype Boot = Boot(decision: Decision, file: PidFile)

  /**
   How `open(pid_path, 'w')` and the write of the PID went. Opening for
   writing empties the file, so a write that fails after the open leaves it
   empty; an open that fails leaves it as it was.
   */
  datatype PidWrite = Written | OpenFailed | WriteFailed

  /** `int(f.readline())`: the PID recorded in an existing file, `None` for the `ValueError`. */
  function RecordedPid(text: string): (r: Option<int>)
    ensures text == [] ==> r.None?
    ensures (forall i :: 0 <= i < |text| ==> !IsLineBreak(text[i]) && !IsSpace(text[i])) ==>
      r == ParseInt(text)
  {
    ParseInt(Trim(FirstLine(text)))
  }

  /**
   Opening the file with mode `'x'` creates it empty, or fails because it
   exists. An existing file is read and its PID signalled: if the signal
   arrives this invocation was a stop request; if the process is gone the file
   is stale and is overwritten. The PID is written with mode `'w'` and a
   failure there exits with status 1. `os.kill` does not check the number it is
   given: a recorded 0 signals the starter's own process group and a negative
   number a whole group or every process the user may signal, so only a
   positive PID stands for one other daemon.
   */
  function Start(file: PidFile, signal: Signal, write: PidWrite, ownPid: nat): (b: Boot)
    ensures b.decision.StopOther? <==>
      file.Present? && RecordedPid(file.text).Some? && RecordedPid(file.text).value > 0 && signal == Delivered
    ensures b.decision.StopOther? ==> b.decision.pid == RecordedPid(file.text).value && b.file == file
    ensures b.decision.SignalGroup? <==>
      file.Present? && RecordedPid(file.text).Some? && RecordedPid(file.text).value <= 0 && signal == Delivered
    ensures b.decision.SignalGroup? ==> b.decision.pid == RecordedPid(file.text).value && b.file == file
    ensures b.decision.Proceed? <==>
      write == Written && (file.Absent? || (RecordedPid(file.text).Some? && signal == NoSuchProcess))
    ensures b.decision.Proceed? ==> b.file == Present(ShowInt(ownPid))
    ensures b.decision.Proceed? ==> (b.decision.staleWarning <==> file.Present?)
    ensures b.decision.ExitFailure? <==>
      write != Written && (file.Absent? || (RecordedPid(file.text).Some? && signal == NoSuchProcess))
    ensures b.decision.ExitFailure? && (write == WriteFailed || file.Absent?) ==> b.file == Present("")
    ensures b.decision.ExitFailure? && write == OpenFailed && file.Present? ==> b.file == file
    ensures b.decision.Uncaught? ==> file.Present? && b.file == file
  {
    match file
    case Absent =>
      (match write
       case Written => Boot(Proceed(false), Present(ShowInt(ownPid)))
       case _ => Boot(ExitFailure, Present("")))
    case Present(text) =>
      match RecordedPid(text)
      case None => Boot(Uncaught, file)
      case Some(pid) =>
        match signal
        case Delivered => if pid > 0 then Boot(StopOther(pid), file) else Boot(SignalGroup(pid), file)
        case NotPermitted => Boot(Uncaught, file)
        case NoSuchProcess =>
          match write
          case Written => Boot(Proceed(true), Present(ShowInt(ownPid)))
          case OpenFailed => Boot(ExitFailure, file)
          case WriteFailed => Boot(ExitFailure, Present(""))
  }

  lemma RecordedShowInt(pid: nat)
    ensures RecordedPid(ShowInt(pid)) == Some(pid)
  {
    var s := ShowInt(pid);
    assert forall i :: 0 <= i < |s| ==> !IsLineBreak(s[i]) by {
      forall i | 0 <= i < |s| ensures !IsLineBreak(s[i]) {
        assert IsDigit(s[i]);
      }
    }
    assert FirstLine(s) == s;
    assert forall i :: 0 <= i < |s| ==> !IsSpace(s[i]) by {
      forall i | 0 <= i < |s| ensures !IsSpace(s[i]) {
        assert IsDigit(s[i]);
      }
    }
    assert Trim(s) == s;
    ParseShowInt(pid);
  }

  /**
   A second invocation while the first daemon runs reads the first daemon's
   PID back from the file, signals it and exits without writing its own.
   */
  lemma SecondInstanceStopsFirst(first: nat, second: nat, signal: Signal, write: PidWrite)
    requires first > 0  // `os.getpid()` is positive
    ensures var b1 := Start(Absent, signal, Written, first);
      var b2 := Start(b1.file, Delivered, write, second);
      && b1.decision == Proceed(false)
      && b2 == Boot(StopOther(first), b1.file)
  {
    RecordedShowInt(first);
  }

  /**
   A stale file, left by a daemon that died without cleaning up, is taken
   over: the new daemon warns and records its own PID.
   */
  lemma StaleFileTakenOver(dead: nat, own: nat)
    ensures Start(Present(ShowInt(dead)), NoSuchProcess, Written, own) == Boot(Proceed(true), Present(ShowInt(own)))
  {
    RecordedShowInt(dead);
  }

  /**
   A file that records 0 does not name a daemon: the signal goes to the
   starter's own process group, and nothing is stopped as another daemon.
   */
  lemma ZeroPidSignalsGroup(write: PidWrite, own: nat)
    ensures Start(Present(ShowInt(0)), Delivered, write, own) == Boot(SignalGroup(0), Present(ShowInt(0)))
  {
    RecordedShowInt(0);
  }

  /**
   When writing the PID fails after the file was opened, or when a freshly
   created file cannot be opened for writing, an empty file stays behind, and
   every later start fails on `int('')` before doing anything else.
   */
  lemma FailedWriteBlocksRestart(file: PidFile, signal: Signal, write: PidWrite, own: nat,
                                 laterSignal: Signal, laterWrite: PidWrite, later: nat)
    requires write == WriteFailed || (write == OpenFailed && file.Absent?)
    requires Start(file, signal, write, own).decision.ExitFailure?
    ensures var b1 := Start(file, signal, write, own);
      && b1.file == Present("")
      && Start(b1.file, laterSignal, laterWrite, later) == Boot(Uncaught, Present(""))
  {
    assert Trim(FirstLine("")) == "";
  }

  /**
   Only the first line of the file counts, and a lone `\r` ends it as `\n`
   does: a PID followed by a line break reads back whatever comes after.
   */
  lemma RecordedFirstLineOnly(pid: nat, brk: char, rest: string)
    requires IsLineBreak(brk)
    ensures RecordedPid(ShowInt(pid) + [brk] + rest) == Some(pid)
  {
    var s := ShowInt(pid);
    var text := s + [brk] + rest;
    assert forall i :: 0 <= i < |s| ==> !IsLineBreak(s[i]) && !IsSpace(s[i]) by {
      forall i | 0 <= i < |s| ensures !IsLineBreak(s[i]) && !IsSpace(s[i]) {
        assert IsDigit(s[i]);
      }
    }
    assert BreakAt(text) == |s| by {
      assert forall j :: 0 <= j < |s| ==> text[j] == s[j];
      assert text[|s|] == brk;
    }
    assert text[..|s|] == s;
    var line := FirstLine(text);
    assert line == s + "\n";
    TrimBreak(s);
    ParseShowInt(pid);
  }

  /** Trimming a line of non-blank text drops just its line break. */
  lemma TrimBreak(s: string)
    requires |s| > 0 && forall i :: 0 <= i < |s| ==> !IsSpace(s[i])
    ensures Trim(s + "\n") == s
  {
    var t := s + "\n";
    assert !IsSpace(t[0]);
    assert t[..|t| - 1] == s;
  }
}

=== FILE: mode.dfy ===
/**
 The mode controller: the current-mode arithmetic of `main`, the mode
 announcement that `setMode` writes to the keypad, and the choice of a
 macro name by a button number.
 */
module Mode {
  import opened Wrappers
  import opened Text

  /**
   `(current + change) % len(modes)`. Python's `%` with a positive divisor
   floors, which for a positive divisor agrees with Dafny's Euclidean `%`:
   the result is the unique index in range congruent to `current + change`.
   */
  function NextMode(current: int, change: int, count: nat): (r: nat)
    requires count > 0
    ensures r < count
    ensures exists q :: current + change == q * count + r
  {
    var x := current + change;
    assert x == (x / count) * count + x % count;
    x % count
  }

  const Header: string := "mode_setup\0\n"

  /** Each slot name's characters followed by the `"\0\n"` terminator. */
  function Fields(slots: seq<string>): string {
    if slots == [] then "" else slots[0] + "\0\n" + Fields(slots[1..])
  }

  /**
   Everything `setMode` writes for one mode, in order. When no slot name holds
   a NUL, the receiver cuts it back into the header record and the slot names.
   */
  function Announce(slots: seq<string>): (r: string)
    ensures NulFree(slots) ==> Records(r) == Some(["mode_setup"] + slots)
  {
    HeaderFieldsRecords(slots);
    Header + Fields(slots)
  }

  /** No slot name holds a NUL, which the receiver would take for a terminator. */
  predicate NulFree(slots: seq<string>) {
    forall k :: 0 <= k < |slots| ==> '\0' !in slots[k]
  }

  /** The header record followed by the slot records cuts back into the names. */
  lemma HeaderFieldsRecords(slots: seq<string>)
    ensures NulFree(slots) ==> Records(Header + Fields(slots)) == Some(["mode_setup"] + slots)
  {
    if NulFree(slots) {
      var h := "mode_setup";
      var f := Fields(slots);
      FieldsRecords(slots);
      assert Header == h + "\0\n";
      RecordsCons(h, f);
    }
  }

  /**
   The receiving side of the announcement: cut text into records, each ended
   by `"\0\n"`, the first NUL of a record being its terminator.
   */
  function Records(s: string): Option<seq<string>>
    decreases |s|
  {
    if s == [] then Some([])
    else match FirstIndexOf(s, '\0')
      case None => None
      case Some(i) =>
        if i + 1 < |s| && s[i + 1] == '\n' then
          match Records(s[i + 2..])
          case None => None
          case Some(rest) => Some([s[..i]] + rest)
        else None
  }

  lemma RecordsCons(name: string, rest: string)
    requires '\0' !in name
    ensures Records(name + "\0\n" + rest) ==
      match Records(rest)
      case None => None
      case Some(rs) => Some([name] + rs)
  {
    var s := name + "\0\n" + rest;
    assert s[|name|] == '\0';
    assert FirstIndexOf(s, '\0') == Some(|name|);
    assert s[..|name|] == name;
    assert s[|name| + 2..] == rest;
  }

  lemma {:induction false} FieldsRecords(slots: seq<string>)
    requires NulFree(slots)
    ensures Records(Fields(slots)) == Some(slots)
  {
    if slots != [] {
      FieldsRecords(slots[1..]);
      RecordsCons(slots[0], Fields(slots[1..]));
      assert [slots[0]] + slots[1..] == slots;
    }
  }

  /**
   Different modes are announced differently: two lists of NUL-free slot
   names with the same announcement are the same list, so the keypad can
   tell every mode apart.
   */
  lemma {:induction false} AnnounceInjective(a: seq<string>, b: seq<string>)
    requires NulFree(a) && NulFree(b)
    ensures Announce(a) == Announce(b) <==> a == b
  {
    if Announce(a) == Announce(b) {
      var ra := ["mode_setup"] + a;
      var rb := ["mode_setup"] + b;
      assert ra == rb;
      assert a == ra[1..] && b == rb[1..];
    }
  }

  predicate IsAscii(c: char) {
    c as int < 128
  }

  /**
   What `setMode` manages to write: `bytes(x, 'ascii')` raises on the first
   character outside ASCII, so the output stops just before it; `ok` tells
   whether the whole announcement went out.
   */
  function AsciiPrefix(s: string): (r: (string, bool))
    ensures r.0 <= s
    ensures forall j :: 0 <= j < |r.0| ==> IsAscii(r.0[j])
    ensures r.1 <==> r.0 == s
    ensures !r.1 ==> !IsAscii(s[|r.0|])
  {
    if s == [] then ("", true)
    else if !IsAscii(s[0]) then ("", false)
    else
      var (p, ok) := AsciiPrefix(s[1..]);
      ([s[0]] + p, ok)
  }

  /** Every character of a mode's names is ASCII. */
  predicate AsciiNames(slots: seq<string>) {
    forall i, j :: 0 <= i < |slots| && 0 <= j < |slots[i]| ==> IsAscii(slots[i][j])
  }

  /** With ASCII names, the whole announcement goes out. */
  lemma {:induction false} FieldsAscii(slots: seq<string>)
    requires AsciiNames(slots)
    ensures forall k :: 0 <= k < |Fields(slots)| ==> IsAscii(Fields(slots)[k])
    decreases |slots|
  {
    if slots != [] {
      var f := Fields(slots);
      var head := slots[0] + "\0\n";
      assert f == head + Fields(slots[1..]);
      assert AsciiNames(slots[1..]) by {
        forall i, j | 0 <= i < |slots[1..]| && 0 <= j < |slots[1..][i]|
          ensures IsAscii(slots[1..][i][j])
        {
          assert slots[1..][i] == slots[i + 1];
        }
      }
      FieldsAscii(slots[1..]);
      forall k | 0 <= k < |head| ensures IsAscii(head[k]) {
        if k < |slots[0]| {
          assert head[k] == slots[0][k];
        }
      }
    }
  }

  /** The announcement of a mode with ASCII names is written whole. */
  lemma AnnounceAscii(slots: seq<string>)
    requires AsciiNames(slots)
    ensures AsciiPrefix(Announce(slots)) == (Announce(slots), true)
  {
    var header := Header;
    var fields := Fields(slots);
    var text := Announce(slots);
    assert text == header + fields;
    FieldsAscii(slots);
    assert forall k :: 0 <= k < |header| ==> IsAscii(header[k]);
    forall k | 0 <= k < |text| ensures IsAscii(text[k]) {
      if k >= |header| {
        assert text[k] == fields[k - |header|];
      }
    }
  }

  /**
   `modes[current_mode][pressed_button - 1]` with Python's list indexing:
   index `i` is valid when `-len <= i < len`, and a negative index counts from
   the end, so button 0 names the last slot. `None` stands for the `IndexError`.
   */
  function Resolve(slots: seq<string>, button: int): (r: Option<string>)
    ensures r.Some? <==> -|slots| <= button - 1 < |slots|
    ensures r.Some? ==> |slots| > 0 && r.value == slots[(button - 1) % |slots|]
  {
    var i := button - 1;
    if -|slots| <= i < |slots| then Some(slots[if i < 0 then i + |slots| else i])
    else None
  }
}

=== FILE: text.dfy ===
/**
 Character-level helpers shared by the frame decoder, the mode announcement
 and the PID file: searching a string for a character, and the decimal
 integers that Python's `int()` reads and `str()` writes.
 */
module Text {
  import opened Wrappers

  /** Index of the first occurrence of `c` in `s`. */
  function FirstIndexOf(s: string, c: char): (r: Option<nat>)
    ensures r.Some? ==> r.value < |s| && s[r.value] == c
    ensures r.Some? ==> forall j :: 0 <= j < r.value ==> s[j] != c
    ensures r.None? ==> forall j :: 0 <= j < |s| ==> s[j] != c
  {
    if s == [] then None
    else if s[0] == c then Some(0)
    else match FirstIndexOf(s[1..], c)
      case None => None
      case Some(i) => Some(i + 1)
  }

  /** Index of the last occurrence of `c` among the first `k` characters of `s`. */
  function LastIndexOf(s: string, c: char, k: nat): (r: Option<nat>)
    requires k <= |s|
    ensures r.Some? ==> r.value < k && s[r.value] == c
    ensures r.Some? ==> forall j :: r.value < j < k ==> s[j] != c
    ensures r.None? ==> forall j :: 0 <= j < k ==> s[j] != c
    decreases k
  {
    if k == 0 then None
    else if s[k - 1] == c then Some(k - 1)
    else LastIndexOf(s, c, k - 1)
  }

  /** Where a regular expression's `.` stops matching: the first newline, or the end. */
  function LineEnd(s: string): (k: nat)
    ensures k <= |s|
    ensures forall j :: 0 <= j < k ==> s[j] != '\n'
    ensures k < |s| ==> s[k] == '\n'
  {
    match FirstIndexOf(s, '\n')
    case None => |s|
    case Some(i) => i
  }

  /** The characters that end a line when a file is read in text mode: `\n`, `\r` (and so `\r\n`). */
  predicate IsLineBreak(c: char) {
    c == '\n' || c == '\r'
  }

  /** Where the first line of text-mode input ends: the first line break, or the end. */
  function BreakAt(s: string): (k: nat)
    ensures k <= |s|
    ensures forall j :: 0 <= j < k ==> !IsLineBreak(s[j])
    ensures k < |s| ==> IsLineBreak(s[k])
  {
    if s == [] || IsLineBreak(s[0]) then 0 else 1 + BreakAt(s[1..])
  }

  /**
   What `readline()` on a file opened in text mode returns: the first line,
   its line break (`\n`, `\r` or `\r\n`) given back as a single `\n`.
   */
  function FirstLine(s: string): (r: string)
    ensures forall j :: 0 <= j < |r| && j < |s| && !IsLineBreak(r[j]) ==> r[j] == s[j]
    ensures (forall j :: 0 <= j < |s| ==> !IsLineBreak(s[j])) ==> r == s
    ensures BreakAt(s) < |s| ==> 0 < |r| <= |s| && r[|r| - 1] == '\n' && IsLineBreak(s[|r| - 1])
    ensures BreakAt(s) < |s| ==> r[..|r| - 1] == s[..|r| - 1]
    ensures forall j :: 0 <= j < |r| - 1 ==> !IsLineBreak(r[j])
  {
    var k := BreakAt(s);
    if k < |s| then s[..k] + "\n" else s
  }

  predicate IsDigit(c: char) {
    '0' <= c <= '9'
  }

  predicate AllDigits(s: string) {
    forall i :: 0 <= i < |s| ==> IsDigit(s[i])
  }

  function DigitValue(c: char): (d: nat)
    requires IsDigit(c)
    ensures d < 10
  {
    c as int - '0' as int
  }

  function DigitChar(d: nat): (c: char)
    requires d < 10
    ensures IsDigit(c) && DigitValue(c) == d
  {
    ('0' as int + d) as char
  }

  /** The value of a non-empty run of decimal digits, most significant first. */
  function DigitsValue(s: string): nat
    requires AllDigits(s)
    decreases |s|
  {
    if s == [] then 0 else 10 * DigitsValue(s[..|s| - 1]) + DigitValue(s[|s| - 1])
  }

  /** Decimal notation of a natural number, as Python's `str()` writes it. */
  function ShowNat(n: nat): (s: string)
    ensures |s| > 0 && AllDigits(s)
  {
    if n < 10 then [DigitChar(n)] else ShowNat(n / 10) + [DigitChar(n % 10)]
  }

  /** Decimal notation of an integer, with a leading `-` when it is negative. */
  function ShowInt(i: int): (s: string)
    ensures |s| > 0
    ensures i >= 0 ==> AllDigits(s)
    ensures i < 0 ==> s[0] == '-' && AllDigits(s[1..])
  {
    if i < 0 then "-" + ShowNat(-i) else ShowNat(i)
  }

  /** Text accepted by Python's `int()` among strings made of digits and signs:
      one optional sign followed by at least one digit. */
  predicate IsIntLiteral(s: string) {
    var digits := if |s| > 0 && (s[0] == '+' || s[0] == '-') then s[1..] else s;
    |digits| > 0 && AllDigits(digits)
  }

  /**
   Python's `int()` on a string of digits and signs; `None` stands for the
   `ValueError` it raises. Leading zeros are accepted (`int('007') == 7`).
   */
  function ParseInt(s: string): (r: Option<int>)
    ensures r.Some? <==> IsIntLiteral(s)
    ensures r.Some? && r.value < 0 ==> s[0] == '-'
    ensures r.Some? && s[0] == '-' ==> r.value <= 0
  {
    if |s| > 0 && AllDigits(s) then Some(DigitsValue(s))
    else if |s| > 1 && s[0] == '-' && AllDigits(s[1..]) then Some(-(DigitsValue(s[1..]) as int))
    else if |s| > 1 && s[0] == '+' && AllDigits(s[1..]) then Some(DigitsValue(s[1..]))
    else None
  }

  lemma {:induction false} ShowNatValue(n: nat)
    ensures DigitsValue(ShowNat(n)) == n
  {
    if n >= 10 {
      var s := ShowNat(n);
      assert s[..|s| - 1] == ShowNat(n / 10);
      ShowNatValue(n / 10);
    }
  }

  /** `int(str(i)) == i`: what `str()` writes, `int()` reads back. */
  lemma ParseShowInt(i: int)
    ensures ParseInt(ShowInt(i)) == Some(i)
  {
    if i < 0 {
      ShowNatValue(-i);
      assert ShowInt(i)[1..] == ShowNat(-i);
    } else {
      ShowNatValue(i);
    }
  }

  function Pow10(k: nat): (p: nat)
    ensures p >= 1
  {
    if k == 0 then 1 else 10 * Pow10(k - 1)
  }

  lemma AllDigitsAppend(a: string, b: string)
    requires AllDigits(a) && AllDigits(b)
    ensures AllDigits(a + b)
  {
    var ab := a + b;
    forall i | 0 <= i < |ab| ensures IsDigit(ab[i]) {
      if i >= |a| { assert ab[i] == b[i - |a|]; }
    }
  }

  /** The value of digits written after other digits: positional notation. */
  lemma {:induction false} DigitsValueAppend(a: string, b: string)
    requires AllDigits(a) && AllDigits(b)
    ensures AllDigits(a + b)
    ensures DigitsValue(a + b) == DigitsValue(a) * Pow10(|b|) + DigitsValue(b)
    decreases |b|
  {
    AllDigitsAppend(a, b);
    if b == [] {
      assert a + b == a;
    } else {
      var b' := b[..|b| - 1];
      var c := DigitValue(b[|b| - 1]);
      assert (a + b)[..|a + b| - 1] == a + b';
      DigitsValueAppend(a, b');
      var x, p, y := DigitsValue(a), Pow10(|b'|), DigitsValue(b');
      assert DigitsValue(a + b) == 10 * (x * p + y) + c;
      assert DigitsValue(b) == 10 * y + c;
      ShiftDecimal(x, p, y, c);
    }
  }

  lemma ShiftDecimal(x: int, p: int, y: int, c: int)
    ensures 10 * (x * p + y) + c == x * (10 * p) + (10 * y + c)
  {
  }

  /** A run of zeros is worth nothing. */
  lemma {:induction false} ZerosValue(z: string)
    requires forall i :: 0 <= i < |z| ==> z[i] == '0'
    ensures AllDigits(z) && DigitsValue(z) == 0
    decreases |z|
  {
    if z != [] {
      ZerosValue(z[..|z| - 1]);
    }
  }

  /**
   `int()` ignores leading zeros and reads an explicit `+`: zeros before the
   decimal notation of `n`, with no sign, with `+` or with `-`, read as `n`,
   `n` and `-n`; so `int('01') == int('+1') == 1`. The model puts no bound on
   the number of digits.
   */
  lemma ParseLeadingZeros(z: string, n: nat)
    requires forall i :: 0 <= i < |z| ==> z[i] == '0'
    ensures ParseInt(z + ShowNat(n)) == Some(n)
    ensures ParseInt("+" + (z + ShowNat(n))) == Some(n)
    ensures ParseInt("-" + (z + ShowNat(n))) == Some(-(n as int))
  {
    LeadingZerosValue(z, n);
    ParseDigits(z + ShowNat(n), n);
  }

  /** Zeros in front of a decimal notation do not change its value. */
  lemma LeadingZerosValue(z: string, n: nat)
    requires forall i :: 0 <= i < |z| ==> z[i] == '0'
    ensures |z + ShowNat(n)| > 0 && AllDigits(z + ShowNat(n))
    ensures DigitsValue(z + ShowNat(n)) == n
  {
    ZerosValue(z);
    DigitsValueAppend(z, ShowNat(n));
    ShowNatValue(n);
  }

  /** Digits read as their value, after no sign, `+` or `-`. */
  lemma ParseDigits(d: string, n: nat)
    requires |d| > 0 && AllDigits(d) && DigitsValue(d) == n
    ensures ParseInt(d) == Some(n)
    ensures ParseInt("+" + d) == Some(n)
    ensures ParseInt("-" + d) == Some(-(n as int))
  {
    assert ("+" + d)[1..] == d;
    assert ("-" + d)[1..] == d;
  }

  /** The ASCII whitespace that `int()` ignores around its argument. */
  predicate IsSpace(c: char) {
    c == ' ' || c == '\t' || c == '\n' || c == '\r' || c == 11 as char || c == 12 as char
  }

  /** The number of whitespace characters `s` starts with. */
  function Lead(s: string): (n: nat)
    ensures n <= |s|
    ensures forall j :: 0 <= j < n ==> IsSpace(s[j])
    ensures n < |s| ==> !IsSpace(s[n])
  {
    if s != [] && IsSpace(s[0]) then 1 + Lead(s[1..]) else 0
  }

  /** `s` with leading and trailing whitespace removed. */
  function Trim(s: string): (r: string)
    ensures |r| <= |s|
    ensures StrippedAt(s, r, Lead(s))
    ensures |r| > 0 ==> !IsSpace(r[0]) && !IsSpace(r[|r| - 1])
    ensures (forall j :: 0 <= j < |s| ==> !IsSpace(s[j])) ==> r == s
    decreases |s|
  {
    if |s| > 0 && IsSpace(s[0]) then
      var r := Trim(s[1..]);
      StripFront(s, r);
      r
    else if |s| > 0 && IsSpace(s[|s| - 1]) then
      var r := Trim(s[..|s| - 1]);
      StripBack(s, r);
      r
    else
      assert StrippedAt(s, s, 0);
      s
  }

  /** Stripping the text after a leading blank strips the whole text. */
  lemma StripFront(s: string, r: string)
    requires |s| > 0 && IsSpace(s[0])
    requires StrippedAt(s[1..], r, Lead(s[1..]))
    ensures StrippedAt(s, r, Lead(s))
  {
    assert s[1..|s|] == s[1..];
    StrippedWithin(s, 1, |s|, r, Lead(s[1..]));
  }

  /** Stripping the text before a trailing blank strips the whole text, when it does not start blank. */
  lemma StripBack(s: string, r: string)
    requires |s| > 0 && !IsSpace(s[0]) && IsSpace(s[|s| - 1])
    requires StrippedAt(s[..|s| - 1], r, Lead(s[..|s| - 1]))
    ensures StrippedAt(s, r, Lead(s))
  {
    assert s[0..|s| - 1] == s[..|s| - 1];
    assert Lead(s[..|s| - 1]) == 0;
    StrippedWithin(s, 0, |s| - 1, r, 0);
  }

  /** `r` occurs in `s` at offset `i`. */
  predicate PieceAt(s: string, r: string, i: int) {
    0 <= i <= |s| - |r| && r == s[i..i + |r|]
  }

  /** `r` is `s` with only whitespace cut from its two ends, the kept part starting at `i`. */
  predicate StrippedAt(s: string, r: string, i: int) {
    && PieceAt(s, r, i)
    && (forall j :: 0 <= j < i ==> IsSpace(s[j]))
    && (forall j :: i + |r| <= j < |s| ==> IsSpace(s[j]))
  }

  /** Stripping inside `s[lo..hi]` strips `s` when everything outside that slice is whitespace. */
  lemma StrippedWithin(s: string, lo: nat, hi: nat, r: string, i: nat)
    requires lo <= hi <= |s|
    requires forall j :: 0 <= j < lo ==> IsSpace(s[j])
    requires forall j :: hi <= j < |s| ==> IsSpace(s[j])
    requires StrippedAt(s[lo..hi], r, i)
    ensures StrippedAt(s, r, lo + i)
  {
    var t := s[lo..hi];
    assert |t| == hi - lo;
    forall k | 0 <= k < |r| ensures r[k] == s[lo + i + k] {
      assert r[k] == t[i + k];
    }
    forall j | 0 <= j < lo + i ensures IsSpace(s[j]) {
      if j >= lo {
        assert s[j] == t[j - lo];
      }
    }
    forall j | lo + i + |r| <= j < |s| ensures IsSpace(s[j]) {
      if j < hi {
        assert s[j] == t[j - lo];
      }
    }
  }
}

=== FILE: wrappers.dfy ===
/** The optional-value type used wherever the daemon returns `None`. */
module Wrappers {

  datatype Option<+T> = None | Some(value: T)
}
